=== FILE: README.md ===
# kidshade-ideas in Dafny

A model of the core of kidshade-ideas, a web application that writes
personalised bedtime stories. The application sends the child's name, age,
a theme and a language to a text-generation provider and turns the
provider's untrusted reply into a titled story. It shows saved stories as
cards, switches the interface language by rewriting the URL, and keeps
user accounts with e-mail/password or Google sign-in and a free or premium
plan.

The model is written in immutable datatypes and total functions over
`seq<char>`, one module per source file:

- `Anthropic` (`anthropic.dfy`) covers src/lib/anthropic.ts: the language-name table, the prompt, and the three decoding tiers. The tiers are `JSON.parse` with per-field defaults, then pattern extraction with `\n` un-escaping, then the default title and the raw text. Both regular expressions are modelled twice: once as an executable scanner, once as a declarative description of what a match is. Lemmas prove that the scanner finds exactly the leftmost match.
- `ReplyFormat` (`reply_format.dfy`) takes a reply written in the layout the prompt asks for. Even when `JSON.parse` rejects that reply, the catch block gives back exactly the title and the story, provided both are non-empty, neither contains a quote, and the story has no backslash followed by `n` of its own. A title with a JSON-escaped quote, such as `Le \"dragon\"`, is cut at that quote, and an escaped quote in the story stays escaped; the model states no guarantee for such replies.
- `StoryCard` (`story_card.dfy`) covers src/components/StoryCard.tsx: the theme icon with its fallback, the word count, the reading time and the excerpt.
- `Navbar` (`navbar.dfy`) covers src/components/Navbar.tsx: the flag table and the `switchLocale` path rewrite.
- `UserModel` (`user.dfy`) and `StoryModel` (`story.dfy`) cover the two mongoose schemas. For each schema the model gives the record, its validity predicate, and what `create` stores or rejects. `StoryModel` also covers the ages the generator form offers.
- `Plans` (`plans.dfy`) covers the `PLANS` table.
- `Themes` (`themes.dfy`) covers the `THEMES` table.
- `AccountStore` (`account_store.dfy`) is the `users` collection: a map from the lower-cased e-mail to the user, with `findOne` and `create`.
- `Register` (`register.dfy`) covers `POST /api/auth/register`.
- `Auth` (`auth.dfy`) covers the NextAuth `authorize`, `jwt`, `session` and `signIn` callbacks.
- `Strings`, `Locales` and `Wrappers` are shared helpers. `Strings` holds JavaScript's `split`, `join`, ASCII `toLowerCase`, number rendering and truthiness; `Locales` holds the five locale codes; `Wrappers` holds `Option` and `Result`.

`Anthropic.GeneratedStory` carries, besides the `title` and `content`
that `generateStory` returns, a `tier` field that exists only in the
model: it records which path answered, the `JSON.parse` path
(`Structured`) or the catch block (`Recovered`), so that the lemmas can
speak about each path.

Some things outside the model are passed in as parameters:

- `JSON.parse` is an oracle `parse: string -> Parsed`. It returns a syntax error, `null`, or a value with optional `title` and `content` strings.
- bcrypt is a pair of function parameters: `hash` is `bcrypt.hash(·, 12)` with the call's salt, and `compare` is `bcrypt.compare`.
- The clock is a `now` parameter, in milliseconds.
- The identifier the database assigns is an `id` parameter.

`storiesUsedThisMonth` and `storiesResetDate` are stored with their
defaults, and `PLANS` holds each plan's monthly allowance; no modelled
code reads or updates the two counters.

## Model

| member | source | states |
|---|---|---|
| `Anthropic.LanguageName` | src/lib/anthropic.ts:19-33 | fr/en/es/pt/de map to their language names; every other code gives "French", which is also what "fr" gives; the result is always one of the five names |
| `Anthropic.PromptParts` | src/lib/anthropic.ts:35-52 | the prompt template has 21 pieces, and the substitutions for language name, child name, age and theme sit at positions 1, 3, 5 and 7 |
| `Anthropic.Prompt` | src/lib/anthropic.ts:35-52 | the prompt contains the child's name, the decimal rendering of the age, the theme and the mapped language name |
| `Anthropic.ResponseText` | src/lib/anthropic.ts:60 | there is no text exactly when the reply has no first block; a first block of type text yields its own text, and any other first block yields `""` |
| `Anthropic.SkipWhitespace` | src/lib/anthropic.ts:70-71 | greedy `\s*` stops at the first code point that is not ECMAScript whitespace, having passed only whitespace |
| `Anthropic.NextQuote` | src/lib/anthropic.ts:70 | greedy `[^"]+` stops at the first quote, having passed no quote |
| `Anthropic.ValueStart` | src/lib/anthropic.ts:70-71 | where the `"key"\s*:\s*"` head matches, the value starts after the key, just past an opening quote |
| `Anthropic.TitleAt` | src/lib/anthropic.ts:70 | a title capture is non-empty and has no quote |
| `Anthropic.ClosesAt` | src/lib/anthropic.ts:71 | when the closing test holds at an index, that index holds a quote followed by whitespace only and then `}`; `Anthropic.ClosesAtAgrees` gives the converse |
| `Anthropic.ContentAt` | src/lib/anthropic.ts:71 | the lazy content pattern tried at one index yields a non-empty capture; `Anthropic.ContentAtAgrees` gives its full meaning, the shortest admissible capture after the key |
| `Anthropic.FirstClose` | src/lib/anthropic.ts:71 | the result is the least index from which `"\s*}` matches, and `None` means there is no such index |
| `Anthropic.MatchAt` | src/lib/anthropic.ts:70-71 | a match attempted at an index yields a non-empty capture inside the text, and a title capture has no quote |
| `Anthropic.LeftmostFrom` | src/lib/anthropic.ts:70-71 | `match` without the global flag returns the first index where the pattern matches; it never matches before that index, and `None` means it matches nowhere |
| `Anthropic.Extract` | src/lib/anthropic.ts:70-71 | `text.match(re)?.[1]` is non-empty, and for the title has no quote |
| `Anthropic.ValueStartAgrees` | src/lib/anthropic.ts:70-71 | the scanner's head match holds exactly when the text has the shape key, whitespace, colon, whitespace, quote |
| `Anthropic.ClosesAtAgrees` | src/lib/anthropic.ts:71 | the scanner's closing test holds exactly when the text has the shape quote, whitespace, `}` |
| `Anthropic.TitleAtAgrees` | src/lib/anthropic.ts:70 | the title scanner captures `c` at `p` exactly when `/"title"\s*:\s*"([^"]+)"/` matches at `p` with capture `c` |
| `Anthropic.ContentAtAgrees` | src/lib/anthropic.ts:71 | the content scanner captures `c` at `p` exactly when the lazy pattern matches at `p` with `c` as its shortest admissible capture |
| `Anthropic.MatchAtAgrees` | src/lib/anthropic.ts:70-71 | for both fields, the scanner's match at an index is the pattern's match at that index |
| `Anthropic.NoMatchWithoutKey` | src/lib/anthropic.ts:70-71 | neither pattern can match at an index where its key literal does not start |
| `Anthropic.ExtractIsLeftmostMatch` | src/lib/anthropic.ts:70-71 | extraction returns `c` exactly when some index holds a match with capture `c` and no earlier index holds any match |
| `Anthropic.ExtractNoneIffNoMatch` | src/lib/anthropic.ts:70-71 | extraction returns nothing exactly when the pattern matches nowhere |
| `Anthropic.UnescapeNewlines` | src/lib/anthropic.ts:74 | un-escaping never lengthens the text, keeps non-empty text non-empty, and leaves no backslash followed by `n` |
| `Anthropic.EscapeNewlines` | src/lib/anthropic.ts:51 | the `\n` encoding the prompt requests leaves no newline and adds one character per newline |
| `Anthropic.UnescapeEscape` | src/lib/anthropic.ts:74 | un-escaping undoes the escaping for every text that has no backslash-`n` pair of its own |
| `Anthropic.Recover` | src/lib/anthropic.ts:68-75 | catch block: the leftmost title capture, else "The Adventure of <name>"; the leftmost content capture un-escaped, else the raw text; the title is never empty and the body is non-empty whenever the text is |
| `Anthropic.Decode` | src/lib/anthropic.ts:62-76 | a parsed value gives its truthy title (else the default title) and its truthy content (else the raw text); a syntax error or `null` goes to the catch block; the title is never empty; the body is non-empty whenever the reply is |
| `Anthropic.GenerateStory` | src/lib/anthropic.ts:60-76 | a reply without content blocks fails; otherwise the story is the decoding of the first block's text, so every guarantee of `Decode` and of the catch block carries over; it has a title, and a body whenever the first block is non-empty text |
| `Anthropic.RecoveredTitleIsLeftmostCapture` | src/lib/anthropic.ts:70-73 | without a parsed value, the title is the capture of the leftmost title match: non-empty and quote-free |
| `Anthropic.RecoveredTitleDefaults` | src/lib/anthropic.ts:70-73 | without a parsed value and with no title match anywhere, the title is "The Adventure of <name>" |
| `Anthropic.RecoveredContentIsUnescapedCapture` | src/lib/anthropic.ts:71-74 | without a parsed value, the body is the leftmost content capture with `\n` escapes replaced; it is non-empty and keeps no backslash-`n` pair |
| `Anthropic.RecoveredContentIsRawText` | src/lib/anthropic.ts:71-74 | without a parsed value and with no content match anywhere, the body is the raw reply |
| `ReplyFormat.FormattedReplyIsLaidOut` | src/lib/anthropic.ts:48-52 | the requested reply layout, character by character: opening brace, title key, title, comma, content key, body, closing brace |
| `ReplyFormat.TitleLeftmost` | src/lib/anthropic.ts:70 | in such a reply, title extraction finds exactly the title |
| `ReplyFormat.ContentLeftmost` | src/lib/anthropic.ts:71 | in such a reply with a quote-free body, content extraction finds exactly the body; no earlier index matches, even inside a title that reads "content" |
| `ReplyFormat.EscapeKeepsQuotesOut` | src/lib/anthropic.ts:51 | escaping newlines adds no quote |
| `ReplyFormat.FormattedReplyRoundTrip` | src/lib/anthropic.ts:48-75 | a reply in the requested layout with a non-empty, quote-free title and story, the story without a backslash-`n` pair of its own, decodes through the catch block to exactly that title and story |
| `ReplyFormat.GenerateStoryOfFormattedReply` | src/lib/anthropic.ts:58-75 | under the same conditions, `generateStory` on a reply whose first block holds that text returns exactly the title and story |
| `StoryCard.ThemeEmoji` | src/components/StoryCard.tsx:42 | a known theme shows its table icon, any other theme the book; the icon is never empty |
| `StoryCard.KnownThemesHaveTheirIcon` | src/components/StoryCard.tsx:20-24 | each of the ten theme values has its own icon, the same one its label in `THEMES` starts with, and it is not the book |
| `StoryCard.UnknownThemesGetTheBook` | src/components/StoryCard.tsx:42 | a theme outside the ten values shows the book |
| `StoryCard.WordCount` | src/components/StoryCard.tsx:30 | the word count is the number of spaces plus one, so at least one even for empty content |
| `StoryCard.WordCountOfWords` | src/components/StoryCard.tsx:30 | space-free words joined by single spaces are counted exactly |
| `StoryCard.ReadingTime` | src/components/StoryCard.tsx:31 | the reading time is the least whole number of minutes that covers the words at 150 a minute |
| `StoryCard.ReadingTimeMonotone` | src/components/StoryCard.tsx:31 | more words never give a shorter reading time |
| `StoryCard.ReadingTimeAtLeastOne` | src/components/StoryCard.tsx:30-31 | every card shows at least one minute |
| `StoryCard.Excerpt` | src/components/StoryCard.tsx:32 | the excerpt has min(length, 120) + 3 characters, ends in "...", has no newline, and its first characters are the content's with newlines turned into spaces |
| `StoryCard.ExcerptOfShortLine` | src/components/StoryCard.tsx:32 | a single-line story of at most 120 characters is shown whole, followed by "..." |
| `StoryCard.ExcerptSeesOnlyThePrefix` | src/components/StoryCard.tsx:32 | two stories that agree on their first 120 characters have the same excerpt |
| `Navbar.FlagMapCoversLocales` | src/components/Navbar.tsx:12-14 | the flag table has exactly the keys fr, en, es, pt and de, each flag a pair of regional indicators |
| `Navbar.SetSegment` | src/components/Navbar.tsx:27 | assigning index 1 puts the locale there and keeps every other segment; a one-segment array grows to two |
| `Navbar.SwitchLocale` | src/components/Navbar.tsx:25-28 | the new path starts with the old segment 0 and a `/`; for a slash-free locale, its segments are the old ones with segment 1 replaced (appended when the path has no `/`) |
| `Navbar.SwitchLocaleSegments` | src/components/Navbar.tsx:25-28 | for a slash-free locale, splitting the new path gives the old segments with segment 1 replaced; a path containing `/` keeps its segment count |
| `Navbar.SwitchLocaleKeepsPath` | src/components/Navbar.tsx:25-28 | switching a path to the locale it already names changes nothing |
| `Navbar.SwitchLocaleIdempotent` | src/components/Navbar.tsx:25-28 | switching twice to the same slash-free locale is switching once |
| `Navbar.SwitchLocaleLastWins` | src/components/Navbar.tsx:25-28 | switching to A and then to B is switching to B, for a slash-free A |
| `Navbar.SwitchLocaleExample` | src/components/Navbar.tsx:26-28 | `/fr/generate` switched to `en` is `/en/generate` |
| `Locales.CodesAreSegments` | src/components/Navbar.tsx:12-14 | every locale code is two characters without a slash, so the switch lemmas apply to every locale |
| `UserModel.PlanFromName` | src/models/User.ts:26 | the plan enum accepts exactly "free" and "premium", and the plan read back has that name |
| `UserModel.PlanNameRoundTrip` | src/models/User.ts:9 | every plan's name is accepted by the enum and reads back as the same plan |
| `UserModel.NewUser` | src/models/User.ts:20-34 | a user is stored exactly when name and e-mail are non-empty and the plan, if given, is in the enum; the failing paths are exactly the violated ones; the stored e-mail is lower-cased; the plan defaults to free, the monthly count to 0, the reset date and timestamps to now, and the locale to "fr" |
| `UserModel.DefaultProjection` | src/models/User.ts:23 | a default query returns the user without the password and with everything else unchanged |
| `StoryModel.StoryViolations` | src/models/Story.ts:20-31 | each path is reported exactly when it is violated: a missing or empty owner, name, theme, title or content; a missing age or one outside 1..15; an explicitly empty language |
| `StoryModel.NewStory` | src/models/Story.ts:20-34 | a story is stored exactly when no path is violated and is then valid; language and locale default to "fr", printOrdered to false, and the image and audio URLs are absent unless given |
| `StoryModel.NewStoryAcceptsExactlyValid` | src/models/Story.ts:20-31 | `create` succeeds exactly when the required paths are filled, the language is not empty and the age is in range |
| `StoryModel.AgesOffered` | src/components/StoryGenerator.tsx:12 | the form offers exactly the ages 2 to 14, and the schema accepts each of them |
| `Plans.Details` | src/lib/stripe.ts:8-36 | each of the two plans has feature lists for exactly the five locales; only the free plan has price 0 and a finite allowance, which is 5; free lists have 3 entries and premium lists 5 |
| `Plans.FreeFeaturesStateTheLimit` | src/lib/stripe.ts:13-19 | every free feature list opens with the allowance "5" |
| `Themes.Labelled` | src/lib/utils.ts:17-28 | a locale's list has the ten values in the shared order, each label led by its icon and a space |
| `Themes.ThemeTableShape` | src/lib/utils.ts:16-77 | `THEMES` has exactly the five locales; each lists ten themes with the same values in the same order |
| `Themes.ThemeValuesDistinct` | src/lib/utils.ts:17-28 | the ten theme values are pairwise distinct |
| `Themes.DefaultThemeOffered` | src/lib/utils.ts:18 | every locale offers the form's default theme "dragons" |
| `AccountStore.FindOne` | src/app/api/auth/register/route.ts:20 | a user is found exactly when the lower-cased address is a key; the default selection hides the password and nothing else; the found user's e-mail is the lower-cased query |
| `AccountStore.Create` | src/app/api/auth/register/route.ts:27-32 | `create` fails on validation or on an address already stored; otherwise it adds exactly the new user under its e-mail, and keeps the store valid |
| `AccountStore.CreateThenFind` | src/app/api/auth/register/route.ts:20-32 | a user just created is found under its address in any letter case |
| `Register.Post` | src/app/api/auth/register/route.ts:8-42 | a falsy field gives 400; a string or array password shorter than 6 gives 400; a non-string e-mail gives 500; a known address gives 409; a non-string password or a name mongoose cannot cast gives 500; all with the store unchanged. Otherwise 201 with id, the cast name and the lower-cased e-mail, after adding exactly one free-plan user whose password is the hash; an unreadable body gives 500; the store stays valid |
| `Register.Length` | src/app/api/auth/register/route.ts:14 | `password.length` is defined exactly for strings and arrays, and is the string's length or the array's element count |
| `Register.TooShortExactly` | src/app/api/auth/register/route.ts:14 | `password.length < 6` holds exactly for a string or an array of fewer than six elements, never for a number, boolean, object, `null` or `undefined` |
| `Register.CastToString` | src/models/User.ts:21 | mongoose casts exactly strings, numbers and booleans to a `String` path: a string is kept, a number gets its `toString` rendering (a non-negative one in plain decimal, a negative one with `-`), a boolean becomes "true" or "false", and a truthy value gives a non-empty text |
| `Register.NumericNameIsRendered` | src/app/api/auth/register/route.ts:10-38 | a new address registered with the name `42` is answered 201 with the name `"42"` |
| `Register.NonStringCredentialsFail` | src/app/api/auth/register/route.ts:14-25 | a truthy non-string e-mail, or a truthy non-string password for a new address, passes the presence check and gives 500 with the store unchanged |
| `Register.CreatedReplyHasNoPassword` | src/app/api/auth/register/route.ts:34-38 | a 201 reply carries only id, name and the lower-cased e-mail |
| `Register.RegisterTwiceConflicts` | src/app/api/auth/register/route.ts:20-23 | a body that passes every check registers with 201; after that registration, registering the same address in any letter case gives 409 and leaves the store alone |
| `Auth.Authorize` | src/lib/auth.ts:20-37 | null unless both credentials are present, a user has the address, the user has a password and it compares equal; on success, exactly the stored id, e-mail, name, image and plan |
| `Auth.RegisterThenAuthorize` | src/lib/auth.ts:24-36 | a body that passes every check registers with 201, and the user just registered signs in with the same password under any letter case of the address, as a free-plan user without an image |
| `Auth.Jwt` | src/lib/auth.ts:41-47 | without a user the token is unchanged; with one it gets the user's id and the user's plan if truthy, else "free"; other claims are kept |
| `Auth.JwtIdempotent` | src/lib/auth.ts:41-47 | running the callback again with the same user changes nothing |
| `Auth.JwtCarriesStoredPlan` | src/lib/auth.ts:41-47 | after a credentials sign-in the token holds the stored plan's name, which reads back as that plan |
| `Auth.SessionOf` | src/lib/auth.ts:48-54 | a session with a user gets the token's id and plan and keeps everything else; a session without a user is unchanged |
| `Auth.SessionAfterSignIn` | src/lib/auth.ts:41-54 | after sign-in, the session shows the user's id and a plan that defaults to "free" |
| `Auth.SignIn` | src/lib/auth.ts:55-70 | other providers and known addresses leave the store alone; a Google sign-in for a new address either adds the user under its lower-cased address, exactly one free-plan user without a password, e-mail verified now, or fails, and it fails exactly when `create` rejects the profile; the store stays valid |
| `Auth.SignInIdempotent` | src/lib/auth.ts:55-70 | signing in again, at any time, changes nothing |
| `Auth.GoogleAccountRefusesPasswords` | src/lib/auth.ts:25 | an account created by a Google sign-in has no password, so `authorize` refuses it |
| `Strings.JoinSplit` | src/components/Navbar.tsx:26-28 | joining the pieces of a split on a character gives back the string |
| `Strings.SplitJoin` | src/components/Navbar.tsx:26-28 | splitting a join of separator-free pieces gives back the pieces |
| `Strings.Join` | src/components/Navbar.tsx:28 | joining no pieces gives `""`; the result starts with the first piece, followed by the separator when there is a second |
| `Strings.OrElse` | src/lib/anthropic.ts:65-66 | `a || b` gives `a` exactly when `a` is a non-empty string, else `b` |
| `Strings.ReplaceChar` | src/components/StoryCard.tsx:32 | `replace(/\n/g, ' ')` keeps the length and puts a space at each newline, every other character unchanged |
| `Strings.IntToString` | src/lib/anthropic.ts:38 | `${childAge}` is digits denoting the age without a leading zero (only 0 itself starts with `0`), preceded by `-` for a negative one |
| `Strings.DigitChar` | src/lib/anthropic.ts:38 | each digit of `${n}` is the character `'0'` to `'9'` whose distance from `'0'` is the digit's value |
| `Strings.LowerChar` | src/app/api/auth/register/route.ts:20 | `toLowerCase` on one character: an upper-case ASCII letter moves 32 code points on to its lower-case letter, any other character is kept, and no upper-case letter results |
| `Strings.Split` | src/components/StoryCard.tsx:30 | a split on one character has one piece more than the separator occurs, and no piece contains the separator |
| `Strings.ToLower` | src/app/api/auth/register/route.ts:20 | lower-casing maps each upper-case letter to its own lower-case letter (32 code points on) and keeps every other character, so it keeps the length, leaves no upper-case letter, and changes a string exactly when it has one |
| `Strings.ToLowerIdempotent` | src/app/api/auth/register/route.ts:29 | lower-casing twice is lower-casing once |
| `Strings.NatToDecimal` | src/lib/anthropic.ts:38 | the rendering of a number is digits only, without a leading zero, and denotes that number |
| `Strings.ConcatContainsPart` | src/lib/anthropic.ts:35-52 | every piece of a template literal occurs in the result |

## Left out

- The provider call (client, model name, token limit) is left out; the reply's content blocks are an input. The environment variables, the Stripe client, `connectToDatabase` and the NextAuth/Google provider wiring are left out too: none of them holds logic of the core.
- `JSON.parse` is an oracle. `Anthropic.Decode` models `title` and `content` only as absent or as strings; a truthy non-string value, such as a number or an object, is returned as is by the code and is not modelled.
- `Anthropic.LanguageName` and `StoryCard.ThemeEmoji` leave out keys inherited from `Object.prototype` (`"constructor"`, `"toString"`). In JavaScript these find a truthy function, while the model gives the fallback.
- `Anthropic.PromptParts` renders the age as an integer; a fractional or non-finite `childAge` is not modelled.
- `Strings.ToLower` lower-cases ASCII letters only. JavaScript's `toLowerCase` maps all of Unicode.
- `StoryCard.Excerpt` counts code points, while `slice(0, 120)` counts UTF-16 code units. A story whose first 120 units include characters outside the Basic Multilingual Plane gets a shorter excerpt in the source, which may cut a surrogate pair.
- `Register.Post` also compares the password length in code points, not UTF-16 units. Database failures and the failure of `bcrypt.hash` on a string are not modelled.
- `Register.CastToString` leaves out an object whose `_id` property is a string, which mongoose casts to that string; `Register.Length` leaves out an object with its own `length` property. JSON numbers are integers in `Register.JsonValue`: fractional numbers, and the exponent form JavaScript prints from 1e21 on, are not modelled.
- `AccountStore.FindOne` assumes that the schema's `lowercase` setter is applied to query filters as well as to stored documents, which is how `authorize` and `signIn`, which pass the address as given, find users stored in lower case.
- `Auth.SignIn` takes a provider profile that has an e-mail. What the code does with a missing e-mail depends on how mongoose treats an `undefined` filter, which is not part of this model.
- `bcrypt.hash` and `bcrypt.compare` are function parameters, with the random salt folded into the `hash` given for each call. The model does not state that a hash differs from its plaintext.
- Database identifiers are an `id` parameter, and their uniqueness is not modelled. Timestamps are a `now` parameter.
- `StoryModel.NewStory` takes the owner as a string, with presence as its only check (ObjectId casting is left out), and takes the age as an integer (fractional ages are left out).
- The premium price 2.99 is 299 hundredths in `Plans.Details`, and the premium `priceId` comes from the environment and is left out.
- `cn` and `formatDate` in src/lib/utils.ts wrap foreign libraries (clsx, tailwind-merge, `Intl.DateTimeFormat`) and are left out.
- All rendering, hooks, routing, toasts and translations are left out, as is the fetch/submit flow of the generator form. Only its `AGES` constant is modelled.
- There is no concurrency in the modelled code.

=== FILE: account_store.dfy ===
/** The `users` collection as src/app/api/auth/register/route.ts and
    src/lib/auth.ts use it: `findOne` by e-mail, with or without the
    password, and `create`. The collection is a map from the stored
    (lower-case) e-mail to the user, so the unique index on `email` holds
    by construction. */
module AccountStore {
  import opened Wrappers
  import opened Strings
  import opened UserModel

  datatype Store = Store(users: map<string, User>)

  /** Every stored user is valid and filed under its own e-mail. */
  predicate Valid(s: Store) {
    forall e | e in s.users :: s.users[e].email == e && ValidUser(s.users[e])
  }

  const Empty: Store := Store(map[])

  lemma EmptyValid()
    ensures Valid(Empty)
  {
  }

  /** Whether `findOne` selects the password too (`select('+password')`). */
  datatype Selection = DefaultFields | WithPassword

  /** `User.findOne({ email })`: the e-mail is lower-cased by the path's
      setter before the lookup. */
  function FindOne(s: Store, email: string, sel: Selection): (r: Option<User>)
    ensures r.Some? <==> ToLower(email) in s.users
    ensures r.Some? && sel == WithPassword ==> r.value == s.users[ToLower(email)]
    ensures r.Some? && sel == DefaultFields ==>
      r.value.password.None? && r.value.(password := s.users[ToLower(email)].password) == s.users[ToLower(email)]
    ensures Valid(s) && r.Some? ==> r.value.email == ToLower(email)
  {
    var key := ToLower(email);
    if key !in s.users then None
    else if sel == WithPassword then Some(s.users[key])
    else Some(DefaultProjection(s.users[key]))
  }

  datatype CreateError = ValidationFailed(paths: set<UserPath>) | DuplicateKey

  /** `User.create(input)`: validate, then insert unless the unique index
      on `email` already holds the lower-cased address. */
  function Create(s: Store, id: string, input: UserInput, now: int): (r: Result<(Store, User), CreateError>)
    ensures NewUser(id, input, now).Failure? ==> r == Failure(ValidationFailed(NewUser(id, input, now).error))
    ensures NewUser(id, input, now).Success? ==>
      var u := NewUser(id, input, now).value;
      if u.email in s.users then r == Failure(DuplicateKey)
      else r == Success((Store(s.users[u.email := u]), u))
    ensures r.Success? ==> r.value.1.email !in s.users
    ensures r.Success? && Valid(s) ==> Valid(r.value.0)
  {
    match NewUser(id, input, now)
    case Failure(paths) => Failure(ValidationFailed(paths))
    case Success(u) =>
      if u.email in s.users then Failure(DuplicateKey)
      else Success((Store(s.users[u.email := u]), u))
  }

  /** A user just created is found again under its e-mail, in any case. */
  lemma CreateThenFind(s: Store, id: string, input: UserInput, now: int, email: string)
    requires Create(s, id, input, now).Success?
    requires ToLower(email) == ToLower(input.email.value)
    ensures FindOne(Create(s, id, input, now).value.0, email, WithPassword)
         == Some(Create(s, id, input, now).value.1)
  {
  }
}

=== FILE: anthropic.dfy ===
/** Story generation (src/lib/anthropic.ts): the language-name table, the
    prompt sent to the text-generation provider, and the three-tier
    decoding of the provider's untrusted reply into a title and a body.

    The provider call itself is not modelled: the reply's content blocks
    are an input. `JSON.parse` is an oracle `parse` that answers, for the
    reply text, whether it threw, produced `null`, or produced a value
    whose `title` and `content` properties are given (absent on anything
    that is not an object). */
module Anthropic {
  import opened Wrappers
  import opened Strings

  // ---------------------------------------------------------------------
  // Language names and the prompt

  const LanguageNames: map<string, string> :=
    map["fr" := "French", "en" := "English", "es" := "Spanish",
        "pt" := "Portuguese", "de" := "German"]

  /** `LANGUAGE_NAMES[language] || 'French'`. */
  function LanguageName(code: string): (r: string)
    ensures r in LanguageNames.Values
    ensures r != "French" <==> code in {"en", "es", "pt", "de"}
    ensures code in LanguageNames ==> r == LanguageNames[code]
  {
    assert LanguageNames["fr"] == "French";
    if code in LanguageNames && LanguageNames[code] != "" then LanguageNames[code]
    else "French"
  }

  datatype StoryParams = StoryParams(childName: string, childAge: int, theme: string, language: string)

  // The literal text between the template literal's substitutions.
  const Intro: string :=
    "You are a talented children's book author. Write a magical, engaging bedtime story entirely in "
  const BeforeName: string :=
    ".\n"
    + "\n"
    + "Story requirements:\n"
    + "- The main hero/heroine is a child named \""
  const BeforeAge: string := "\", aged "
  const BeforeTheme: string := " years old\n" + "- Theme: "
  const BeforeLanguage: string := "\n" + "- Language: "
  const LanguageEmphasis: string := " (VERY IMPORTANT: the entire story must be written in "
  const BeforeToneAge: string :=
    ")\n"
    + "- Length: 400-600 words\n"
    + "- Tone: warm, magical, age-appropriate for a "
  const BeforeHeroName: string :=
    "-year-old\n"
    + "- Structure: beginning (introduce hero and setting), middle (exciting adventure/challenge), end (happy resolution with a gentle moral lesson)\n"
    + "- The child \""
  const BeforeTitleLanguage: string :=
    "\" must be the central hero who solves the problem\n"
    + "- Include vivid, imaginative descriptions\n"
    + "- End with a peaceful, sleep-inducing conclusion\n"
    + "\n"
    + "Respond ONLY with a valid JSON object in this exact format (no markdown, no extra text):\n"
    + "{\n"
    + "  \"title\": \"The story title in "
  const BeforeContentLanguage: string := "\",\n" + "  \"content\": \"The full story text in "
  const Closing: string := ", with paragraphs separated by \\n\\n\"\n" + "}"

  /** The pieces of the prompt's template literal, in order. */
  function PromptParts(p: StoryParams): (parts: seq<string>)
    ensures |parts| == 21
    ensures parts[1] == LanguageName(p.language) && parts[3] == p.childName
    ensures parts[5] == IntToString(p.childAge) && parts[7] == p.theme
  {
    var lang := LanguageName(p.language);
    var age := IntToString(p.childAge);
    var head := [Intro, lang, BeforeName, p.childName, BeforeAge, age, BeforeTheme, p.theme];
    assert head[1] == lang && head[3] == p.childName && head[5] == age && head[7] == p.theme;
    head + [ BeforeLanguage, lang, LanguageEmphasis, lang, BeforeToneAge, age,
      BeforeHeroName, p.childName, BeforeTitleLanguage, lang, BeforeContentLanguage,
      lang, Closing ]
  }

  /** The instruction sent to the provider. It names the child, states
      the child's age and the theme, and names the language the story
      must be written in. */
  function Prompt(p: StoryParams): (r: string)
    ensures Contains(r, p.childName)
    ensures Contains(r, IntToString(p.childAge))
    ensures Contains(r, p.theme)
    ensures Contains(r, LanguageName(p.language))
  {
    var parts := PromptParts(p);
    ConcatContainsPart(parts, 1);
    ConcatContainsPart(parts, 3);
    ConcatContainsPart(parts, 5);
    ConcatContainsPart(parts, 7);
    Concat(parts)
  }

  // ---------------------------------------------------------------------
  // The reply

  /** A content block of the provider's reply. */
  datatype ContentBlock = TextBlock(text: string) | OtherBlock

  /** `message.content[0].type === 'text' ? message.content[0].text : ''`;
      `None` when there is no first block (the property access throws,
      outside the try block). */
  function ResponseText(blocks: seq<ContentBlock>): (r: Option<string>)
    ensures r.None? <==> |blocks| == 0
    ensures |blocks| > 0 && blocks[0].TextBlock? ==> r == Some(blocks[0].text)
    ensures |blocks| > 0 && !blocks[0].TextBlock? ==> r == Some("")
  {
    if |blocks| == 0 then None
    else match blocks[0]
      case TextBlock(t) => Some(t)
      case OtherBlock => Some("")
  }

  /** What `JSON.parse(responseText)` gives: a thrown syntax error, the
      value `null` (reading a property of it throws too), or another
      value with its `title` and `content` properties. A property that is
      missing, or holds a falsy value, is `None` or `Some("")`. */
  datatype Parsed = SyntaxError | NullValue | Value(title: Option<string>, content: Option<string>)

  // ---------------------------------------------------------------------
  // Regular-expression matching, as a scanner

  /** ECMAScript `\s`: the WhiteSpace and LineTerminator code points. */
  predicate IsJsWhitespace(c: char) {
    c == '\t' || c == '\n' || c == '\U{000B}' || c == '\U{000C}' || c == '\r'
    || c == ' ' || c == '\U{00A0}' || c == '\U{1680}' || ('\U{2000}' <= c <= '\U{200A}')
    || c == '\U{2028}' || c == '\U{2029}' || c == '\U{202F}' || c == '\U{205F}'
    || c == '\U{3000}' || c == '\U{FEFF}'
  }

  ghost predicate AllWhitespace(s: string, i: nat, j: nat)
    requires i <= j <= |s|
  {
    forall m :: i <= m < j ==> IsJsWhitespace(s[m])
  }

  /** Greedy `\s*` from index `i`: the first index at or after `i` that
      does not hold whitespace. */
  function SkipWhitespace(s: string, i: nat): (r: nat)
    requires i <= |s|
    ensures i <= r <= |s|
    ensures forall m :: i <= m < r ==> IsJsWhitespace(s[m])
    ensures r < |s| ==> !IsJsWhitespace(s[r])
    decreases |s| - i
  {
    if i < |s| && IsJsWhitespace(s[i]) then SkipWhitespace(s, i + 1) else i
  }

  /** Greedy `[^"]+` from index `i` stops at the first quote at or after
      `i`, or at the end. */
  function NextQuote(s: string, i: nat): (r: nat)
    requires i <= |s|
    ensures i <= r <= |s|
    ensures forall m :: i <= m < r ==> s[m] != '"'
    ensures r < |s| ==> s[r] == '"'
    decreases |s| - i
  {
    if i < |s| && s[i] != '"' then NextQuote(s, i + 1) else i
  }

  const TitleKey: string := "\"title\""
  const ContentKey: string := "\"content\""

  /** The common head of both patterns, `"<key>"\s*:\s*"`, tried at index
      `p`: the index just after the opening quote of the value. */
  function ValueStart(s: string, p: nat, key: string): (r: Option<nat>)
    ensures r.Some? ==> p + |key| < r.value <= |s| && s[r.value - 1] == '"'
  {
    if !OccursAt(s, key, p) then None
    else
      var j := SkipWhitespace(s, p + |key|);
      if j < |s| && s[j] == ':' then
        var k := SkipWhitespace(s, j + 1);
        if k < |s| && s[k] == '"' then Some(k + 1) else None
      else None
  }

  /** `/"title"\s*:\s*"([^"]+)"/` attempted at index `p`: the capture. */
  function TitleAt(s: string, p: nat): (r: Option<string>)
    ensures r.Some? ==> |r.value| >= 1 && '"' !in r.value
  {
    match ValueStart(s, p, TitleKey)
    case None => None
    case Some(v) =>
      var e := NextQuote(s, v);
      if v < e < |s| then
        assert forall m :: 0 <= m < e - v ==> s[v..e][m] == s[v + m];
        Some(s[v..e])
      else None
  }

  /** `"\s*\}` matches at index `e`. */
  predicate ClosesAt(s: string, e: nat): (r: bool)
    ensures r ==> e < |s| && s[e] == '"' && ClosingShape(s, e)
  {
    e < |s| && s[e] == '"' && SkipWhitespace(s, e + 1) < |s| && s[SkipWhitespace(s, e + 1)] == '}'
  }

  /** The first index at or after `i` where `"\s*\}` matches. */
  function FirstClose(s: string, i: nat): (r: Option<nat>)
    ensures r.Some? ==> i <= r.value < |s| && ClosesAt(s, r.value)
    ensures r.Some? ==> forall e :: i <= e < r.value ==> !ClosesAt(s, e)
    ensures r.None? ==> forall e :: i <= e < |s| ==> !ClosesAt(s, e)
    decreases |s| - i
  {
    if i >= |s| then None
    else if ClosesAt(s, i) then Some(i)
    else FirstClose(s, i + 1)
  }

  /** `/"content"\s*:\s*"([\s\S]+?)"\s*\}/` attempted at index `p`: the
      lazy capture, the shortest non-empty one followed by `"\s*}`. */
  function ContentAt(s: string, p: nat): (r: Option<string>)
    ensures r.Some? ==> |r.value| >= 1
  {
    match ValueStart(s, p, ContentKey)
    case None => None
    case Some(v) =>
      match FirstClose(s, v + 1)
      case None => None
      case Some(e) => Some(s[v..e])
  }

  datatype Field = Title | Content

  function MatchAt(f: Field, s: string, p: nat): (r: Option<string>)
    ensures r.Some? ==> p < |s| && |r.value| >= 1
    ensures f == Title && r.Some? ==> '"' !in r.value
  {
    match f
    case Title => TitleAt(s, p)
    case Content => ContentAt(s, p)
  }

  /** `String.prototype.match` without the global flag tries the pattern
      at each index in turn: the first index from `p` on where it
      matches. */
  function LeftmostFrom(f: Field, s: string, p: nat): (r: Option<nat>)
    ensures r.Some? ==> p <= r.value < |s| && MatchAt(f, s, r.value).Some?
    ensures r.Some? ==> forall q :: p <= q < r.value ==> MatchAt(f, s, q).None?
    ensures r.None? ==> forall q :: p <= q ==> MatchAt(f, s, q).None?
    decreases |s| - p
  {
    if p >= |s| then None
    else if MatchAt(f, s, p).Some? then Some(p)
    else LeftmostFrom(f, s, p + 1)
  }

  /** `text.match(re)?.[1]`: the capture of the leftmost match. */
  function Extract(f: Field, s: string): (r: Option<string>)
    ensures r.Some? ==> |r.value| >= 1
    ensures f == Title && r.Some? ==> '"' !in r.value
  {
    match LeftmostFrom(f, s, 0)
    case None => None
    case Some(q) => MatchAt(f, s, q)
  }

  // ---------------------------------------------------------------------
  // The patterns read declaratively, and the scanner's agreement with them

  /** `"<key>"\s*:\s*"` spans `s[p..v]`, with its colon at index `j`. */
  ghost predicate KeyShape(s: string, p: nat, key: string, j: nat, v: nat) {
    && p + |key| <= j && j + 1 < v <= |s|
    && OccursAt(s, key, p)
    && AllWhitespace(s, p + |key|, j) && s[j] == ':'
    && AllWhitespace(s, j + 1, v - 1) && s[v - 1] == '"'
  }

  ghost predicate KeyMatch(s: string, p: nat, key: string, v: nat) {
    exists j: nat :: KeyShape(s, p, key, j, v)
  }

  /** `/"title"\s*:\s*"([^"]+)"/` matches at `p` with capture `c`. */
  ghost predicate TitleMatchAt(s: string, p: nat, c: string) {
    exists v: nat :: KeyMatch(s, p, TitleKey, v)
      && |c| >= 1 && '"' !in c
      && v + |c| < |s| && s[v..v + |c|] == c && s[v + |c|] == '"'
  }

  /** `"\s*\}` matches at `e`. */
  ghost predicate ClosingShape(s: string, e: nat) {
    exists m: nat :: e < m < |s| && s[e] == '"' && AllWhitespace(s, e + 1, m) && s[m] == '}'
  }

  /** `/"content"\s*:\s*"([\s\S]+?)"\s*\}/` matches at `p` with capture
      `c`: a non-empty capture followed by `"\s*}`, and no shorter
      non-empty capture is. */
  ghost predicate ContentMatchAt(s: string, p: nat, c: string) {
    exists v: nat :: KeyMatch(s, p, ContentKey, v)
      && |c| >= 1 && v + |c| <= |s| && s[v..v + |c|] == c
      && ClosingShape(s, v + |c|)
      && forall e :: v < e < v + |c| ==> !ClosingShape(s, e)
  }

  ghost predicate Matches(f: Field, s: string, p: nat, c: string) {
    match f
    case Title => TitleMatchAt(s, p, c)
    case Content => ContentMatchAt(s, p, c)
  }

  /** The match at `p` is the leftmost one. */
  ghost predicate LeftmostMatch(f: Field, s: string, p: nat, c: string) {
    Matches(f, s, p, c) && forall q: nat, d: string :: q < p ==> !Matches(f, s, q, d)
  }

  lemma SkipWhitespaceLands(s: string, i: nat, j: nat)
    requires i <= j < |s| && AllWhitespace(s, i, j) && !IsJsWhitespace(s[j])
    ensures SkipWhitespace(s, i) == j
  {
  }

  lemma NextQuoteLands(s: string, i: nat, j: nat)
    requires i <= j < |s| && s[j] == '"'
    requires forall m :: i <= m < j ==> s[m] != '"'
    ensures NextQuote(s, i) == j
  {
  }

  lemma ValueStartAgrees(s: string, p: nat, key: string, v: nat)
    requires |key| > 0 && key[|key| - 1] == '"'
    ensures ValueStart(s, p, key) == Some(v) <==> KeyMatch(s, p, key, v)
  {
    if ValueStart(s, p, key) == Some(v) {
      var j := SkipWhitespace(s, p + |key|);
      assert KeyShape(s, p, key, j, v);
    }
    if KeyMatch(s, p, key, v) {
      var j: nat :| KeyShape(s, p, key, j, v);
      SkipWhitespaceLands(s, p + |key|, j);
      SkipWhitespaceLands(s, j + 1, v - 1);
    }
  }

  lemma ClosesAtAgrees(s: string, e: nat)
    ensures ClosesAt(s, e) <==> ClosingShape(s, e)
  {
    if ClosesAt(s, e) {
      assert e < SkipWhitespace(s, e + 1);
    }
    if ClosingShape(s, e) {
      var m: nat :| e < m < |s| && s[e] == '"' && AllWhitespace(s, e + 1, m) && s[m] == '}';
      SkipWhitespaceLands(s, e + 1, m);
    }
  }

  lemma TitleAtSound(s: string, p: nat, c: string)
    requires TitleAt(s, p) == Some(c)
    ensures TitleMatchAt(s, p, c)
  {
    var v := ValueStart(s, p, TitleKey).value;
    ValueStartAgrees(s, p, TitleKey, v);
  }

  lemma TitleAtComplete(s: string, p: nat, c: string, v: nat)
    requires KeyMatch(s, p, TitleKey, v)
    requires |c| >= 1 && '"' !in c
    requires v + |c| < |s| && s[v..v + |c|] == c && s[v + |c|] == '"'
    ensures TitleAt(s, p) == Some(c)
  {
    ValueStartAgrees(s, p, TitleKey, v);
    forall m | v <= m < v + |c| ensures s[m] != '"' {
      assert s[m] == c[m - v];
    }
    NextQuoteLands(s, v, v + |c|);
  }

  lemma TitleAtAgrees(s: string, p: nat, c: string)
    ensures TitleAt(s, p) == Some(c) <==> TitleMatchAt(s, p, c)
  {
    if TitleAt(s, p) == Some(c) {
      TitleAtSound(s, p, c);
    }
    if TitleMatchAt(s, p, c) {
      var v: nat :| KeyMatch(s, p, TitleKey, v)
        && |c| >= 1 && '"' !in c
        && v + |c| < |s| && s[v..v + |c|] == c && s[v + |c|] == '"';
      TitleAtComplete(s, p, c, v);
    }
  }

  lemma ContentAtSound(s: string, p: nat, c: string)
    requires ContentAt(s, p) == Some(c)
    ensures ContentMatchAt(s, p, c)
  {
    var v := ValueStart(s, p, ContentKey).value;
    ValueStartAgrees(s, p, ContentKey, v);
    var e := FirstClose(s, v + 1).value;
    assert c == s[v..e];
    ClosesAtAgrees(s, e);
    forall e' | v < e' < e ensures !ClosingShape(s, e') {
      ClosesAtAgrees(s, e');
    }
  }

  lemma ContentAtComplete(s: string, p: nat, c: string, v: nat)
    requires KeyMatch(s, p, ContentKey, v)
    requires |c| >= 1 && v + |c| <= |s| && s[v..v + |c|] == c
    requires ClosingShape(s, v + |c|)
    requires forall e :: v < e < v + |c| ==> !ClosingShape(s, e)
    ensures ContentAt(s, p) == Some(c)
  {
    ValueStartAgrees(s, p, ContentKey, v);
    ClosesAtAgrees(s, v + |c|);
    var r := FirstClose(s, v + 1);
    assert r.Some?;
    ClosesAtAgrees(s, r.value);
    assert r.value == v + |c|;
  }

  lemma ContentAtAgrees(s: string, p: nat, c: string)
    ensures ContentAt(s, p) == Some(c) <==> ContentMatchAt(s, p, c)
  {
    if ContentAt(s, p) == Some(c) {
      ContentAtSound(s, p, c);
    }
    if ContentMatchAt(s, p, c) {
      var v: nat :| KeyMatch(s, p, ContentKey, v)
        && |c| >= 1 && v + |c| <= |s| && s[v..v + |c|] == c
        && ClosingShape(s, v + |c|)
        && forall e :: v < e < v + |c| ==> !ClosingShape(s, e);
      ContentAtComplete(s, p, c, v);
    }
  }

  /** The scanner's match at `p` is exactly the pattern's match at `p`. */
  lemma MatchAtAgrees(f: Field, s: string, p: nat, c: string)
    ensures MatchAt(f, s, p) == Some(c) <==> Matches(f, s, p, c)
  {
    match f
    case Title => TitleAtAgrees(s, p, c);
    case Content => ContentAtAgrees(s, p, c);
  }

  function KeyOf(f: Field): string {
    match f
    case Title => TitleKey
    case Content => ContentKey
  }

  /** The pattern cannot match where its key does not start. */
  lemma NoMatchWithoutKey(f: Field, s: string, q: nat, i: nat)
    requires i < |KeyOf(f)| && q + i < |s| && s[q + i] != KeyOf(f)[i]
    ensures MatchAt(f, s, q).None?
  {
    if OccursAt(s, KeyOf(f), q) {
      assert false;
    }
  }

  /** `Extract` returns the capture of the leftmost match, and nothing
      when the pattern matches nowhere. */
  lemma ExtractIsLeftmostMatch(f: Field, s: string, c: string)
    ensures Extract(f, s) == Some(c) <==> exists p: nat :: LeftmostMatch(f, s, p, c)
  {
    if Extract(f, s) == Some(c) {
      var p := LeftmostFrom(f, s, 0).value;
      MatchAtAgrees(f, s, p, c);
      forall q: nat, d: string | q < p ensures !Matches(f, s, q, d) {
        MatchAtAgrees(f, s, q, d);
      }
      assert LeftmostMatch(f, s, p, c);
    }
    if exists p: nat :: LeftmostMatch(f, s, p, c) {
      var p: nat :| LeftmostMatch(f, s, p, c);
      MatchAtAgrees(f, s, p, c);
      var r := LeftmostFrom(f, s, 0);
      assert r.Some?;
      var d := MatchAt(f, s, r.value).value;
      MatchAtAgrees(f, s, r.value, d);
      assert r.value == p;
    }
  }

  lemma ExtractNoneIffNoMatch(f: Field, s: string)
    ensures Extract(f, s).None? <==> forall p: nat, c: string :: !Matches(f, s, p, c)
  {
    if Extract(f, s).None? {
      forall p: nat, c: string ensures !Matches(f, s, p, c) {
        MatchAtAgrees(f, s, p, c);
      }
    } else {
      var c := Extract(f, s).value;
      var p := LeftmostFrom(f, s, 0).value;
      MatchAtAgrees(f, s, p, c);
    }
  }

  // ---------------------------------------------------------------------
  // The `\n` escape

  /** No backslash is directly followed by the letter `n`. */
  predicate NoEscapedNewline(s: string) {
    forall k :: 0 <= k < |s| - 1 ==> !(s[k] == '\\' && s[k + 1] == 'n')
  }

  lemma NoEscapedNewlineCons(x: char, rest: string)
    requires NoEscapedNewline(rest)
    requires x == '\\' ==> |rest| == 0 || rest[0] != 'n'
    ensures NoEscapedNewline([x] + rest)
  {
    var s := [x] + rest;
    forall k | 0 <= k < |s| - 1
      ensures !(s[k] == '\\' && s[k + 1] == 'n')
    {
      if k > 0 {
        assert s[k] == rest[k - 1] && s[k + 1] == rest[k];
      }
    }
  }

  /** `.replace(/\\n/g, '\n')`: every two-character `\n` escape, scanned
      left to right, becomes a newline character. */
  function UnescapeNewlines(s: string): (r: string)
    ensures |r| <= |s|
    ensures |s| > 0 ==> |r| > 0
    ensures (|r| > 0 && r[0] == 'n') <==> (|s| > 0 && s[0] == 'n')
    ensures NoEscapedNewline(r)
  {
    if |s| == 0 then ""
    else if |s| >= 2 && s[0] == '\\' && s[1] == 'n' then
      var rest := UnescapeNewlines(s[2..]);
      NoEscapedNewlineCons('\n', rest);
      "\n" + rest
    else
      var rest := UnescapeNewlines(s[1..]);
      NoEscapedNewlineCons(s[0], rest);
      [s[0]] + rest
  }

  /** The encoding the prompt asks the provider for: each newline written
      as the two characters `\n`. */
  function EscapeNewlines(s: string): (r: string)
    ensures '\n' !in r
    ensures |r| == |s| + Count(s, '\n')
    ensures (|r| > 0 && r[0] == 'n') <==> (|s| > 0 && s[0] == 'n')
  {
    if |s| == 0 then ""
    else if s[0] == '\n' then "\\n" + EscapeNewlines(s[1..])
    else [s[0]] + EscapeNewlines(s[1..])
  }

  /** Un-escaping undoes escaping, for every text that has no backslash
      directly before an `n` of its own. */
  lemma {:induction false} UnescapeEscape(s: string)
    requires NoEscapedNewline(s)
    ensures UnescapeNewlines(EscapeNewlines(s)) == s
  {
    if |s| > 0 {
      var t := s[1..];
      assert NoEscapedNewline(t) by {
        forall k | 0 <= k < |t| - 1
          ensures !(t[k] == '\\' && t[k + 1] == 'n')
        {
          assert t[k] == s[k + 1] && t[k + 1] == s[k + 2];
        }
      }
      UnescapeEscape(t);
      var e := EscapeNewlines(t);
      if s[0] == '\n' {
        assert EscapeNewlines(s) == "\\n" + e;
        assert ("\\n" + e)[2..] == e;
      } else {
        assert EscapeNewlines(s) == [s[0]] + e;
        assert ([s[0]] + e)[1..] == e;
        if s[0] == '\\' && |e| > 0 {
          assert e[0] != 'n';
        }
      }
      assert s == [s[0]] + t;
    }
  }

  // ---------------------------------------------------------------------
  // Decoding

  function DefaultTitle(childName: string): string {
    "The Adventure of " + childName
  }

  /** Which tier produced the result: the strict `JSON.parse` path, or the
      catch block's pattern extraction with its defaults. */
  datatype Tier = Structured | Recovered

  datatype GeneratedStory = GeneratedStory(title: string, content: string, tier: Tier)

  /** The catch block: the leftmost title capture, else the default
      title; the leftmost content capture with its `\n` escapes
      replaced, else the raw text. */
  function Recover(text: string, childName: string): (r: GeneratedStory)
    ensures r.tier == Recovered
    ensures |r.title| > 0
    ensures |text| > 0 ==> |r.content| > 0
    ensures Extract(Title, text).None? ==> r.title == DefaultTitle(childName)
    ensures Extract(Title, text).Some? ==> r.title == Extract(Title, text).value && '"' !in r.title
    ensures Extract(Content, text).None? ==> r.content == text
    ensures Extract(Content, text).Some? ==>
              r.content == UnescapeNewlines(Extract(Content, text).value) && NoEscapedNewline(r.content)
  {
    var title := match Extract(Title, text)
      case Some(t) => t
      case None => DefaultTitle(childName);
    var content := match Extract(Content, text)
      case Some(c) => OrElse(Some(UnescapeNewlines(c)), text)
      case None => text;
    GeneratedStory(title, content, Recovered)
  }

  /** The body of `generateStory` after the reply has arrived. */
  function Decode(text: string, childName: string, parse: string -> Parsed): (r: GeneratedStory)
    ensures |r.title| > 0
    ensures |text| > 0 ==> |r.content| > 0
    ensures r.tier == Structured <==> parse(text).Value?
    ensures parse(text).Value? ==>
              r.title == (if Truthy(parse(text).title) then parse(text).title.value else DefaultTitle(childName))
              && r.content == (if Truthy(parse(text).content) then parse(text).content.value else text)
    ensures !parse(text).Value? ==> r == Recover(text, childName)
  {
    match parse(text)
    case Value(t, c) => GeneratedStory(OrElse(t, DefaultTitle(childName)), OrElse(c, text), Structured)
    case _ => Recover(text, childName)
  }

  datatype GenerateError = NoContentBlock

  /** `generateStory` given the provider's reply. */
  function GenerateStory(p: StoryParams, reply: seq<ContentBlock>, parse: string -> Parsed)
    : (r: Result<GeneratedStory, GenerateError>)
    ensures r.Failure? <==> |reply| == 0
    ensures r.Success? ==> r.value == Decode(ResponseText(reply).value, p.childName, parse)
    ensures r.Success? ==> |r.value.title| > 0
    ensures r.Success? && reply[0].TextBlock? && reply[0].text != "" ==> |r.value.content| > 0
  {
    match ResponseText(reply)
    case None => Failure(NoContentBlock)
    case Some(text) => Success(Decode(text, p.childName, parse))
  }

  // ---------------------------------------------------------------------
  // The catch block in terms of the patterns

  /** Without a structured parse, the title is the leftmost
      `"title": "…"` capture: non-empty and quote-free. */
  lemma RecoveredTitleIsLeftmostCapture(text: string, childName: string, parse: string -> Parsed, p: nat, c: string)
    requires !parse(text).Value?
    requires LeftmostMatch(Title, text, p, c)
    ensures Decode(text, childName, parse).title == c
    ensures c != "" && '"' !in c
  {
    ExtractIsLeftmostMatch(Title, text, c);
  }

  /** Without a structured parse and without a title match, the title is
      the default one built from the child's name. */
  lemma RecoveredTitleDefaults(text: string, childName: string, parse: string -> Parsed)
    requires !parse(text).Value?
    requires forall p: nat, c: string :: !Matches(Title, text, p, c)
    ensures Decode(text, childName, parse).title == DefaultTitle(childName)
  {
    ExtractNoneIffNoMatch(Title, text);
  }

  /** Without a structured parse, the body is the leftmost lazy
      `"content": "…"}` capture with its escapes turned into newlines, so
      no backslash-`n` pair is left in it. */
  lemma RecoveredContentIsUnescapedCapture(text: string, childName: string, parse: string -> Parsed, p: nat, c: string)
    requires !parse(text).Value?
    requires LeftmostMatch(Content, text, p, c)
    ensures Decode(text, childName, parse).content == UnescapeNewlines(c)
    ensures NoEscapedNewline(Decode(text, childName, parse).content)
    ensures |Decode(text, childName, parse).content| > 0
  {
    ExtractIsLeftmostMatch(Content, text, c);
  }

  /** Without a structured parse and without a content match, the body
      is the raw reply. */
  lemma RecoveredContentIsRawText(text: string, childName: string, parse: string -> Parsed)
    requires !parse(text).Value?
    requires forall p: nat, c: string :: !Matches(Content, text, p, c)
    ensures Decode(text, childName, parse).content == text
  {
    ExtractNoneIffNoMatch(Content, text);
  }
}

=== FILE: auth.dfy ===
/** The NextAuth configuration of src/lib/auth.ts: the credentials
    provider's `authorize`, and the `jwt`, `session` and `signIn`
    callbacks. */
module Auth {
  import opened Wrappers
  import opened Strings
  import opened UserModel
  import opened AccountStore
  import opened Register

  datatype Credentials = Credentials(email: Option<string>, password: Option<string>)

  /** The user object `authorize` hands to NextAuth. */
  datatype AuthorizedUser = AuthorizedUser(id: string, email: string, name: string, image: Option<string>, plan: Plan)

  /** `authorize(credentials)`; `None` is `null`. `compare` is
      `bcrypt.compare(password, hash)`. */
  function Authorize(s: Store, credentials: Option<Credentials>, compare: (string, string) -> bool): (r: Option<AuthorizedUser>)
    ensures credentials.None? || !Truthy(credentials.value.email) || !Truthy(credentials.value.password) ==> r.None?
    ensures r.Some? <==>
      && credentials.Some? && Truthy(credentials.value.email) && Truthy(credentials.value.password)
      && ToLower(credentials.value.email.value) in s.users
      && Truthy(s.users[ToLower(credentials.value.email.value)].password)
      && compare(credentials.value.password.value, s.users[ToLower(credentials.value.email.value)].password.value)
    ensures r.Some? ==>
      var u := s.users[ToLower(credentials.value.email.value)];
      r.value == AuthorizedUser(u.id, u.email, u.name, u.image, u.plan)
  {
    if credentials.None? || !Truthy(credentials.value.email) || !Truthy(credentials.value.password) then None
    else
      var c := credentials.value;
      match FindOne(s, c.email.value, WithPassword)
      case None => None
      case Some(u) =>
        if !Truthy(u.password) then None
        else if !compare(c.password.value, u.password.value) then None
        else Some(AuthorizedUser(u.id, u.email, u.name, u.image, u.plan))
  }

  /** A user who has just registered can sign in with the same password,
      given in any letter case of the address, provided `compare` accepts
      a password against its own hash. */
  lemma RegisterThenAuthorize(s: Store, body: RegisterBody, id: string, hash: string -> string,
                              compare: (string, string) -> bool, now: int, email: string)
    requires Registrable(s, body)
    requires compare(body.password.s, hash(body.password.s))
    requires Truthy(Some(email)) && ToLower(email) == ToLower(body.email.s)
    requires Truthy(Some(hash(body.password.s)))
    ensures Post(s, Some(body), id, hash, now).1.status == 201
    ensures var s1 := Post(s, Some(body), id, hash, now).0;
      Authorize(s1, Some(Credentials(Some(email), Some(body.password.s))), compare)
        == Some(AuthorizedUser(id, ToLower(email), CastToString(body.name).value, None, Free))
  {
    var s1 := Post(s, Some(body), id, hash, now).0;
    var key := ToLower(email);
    var u := s1.users[key];
    assert u.id == id && u.email == key && u.image.None?;
  }

  /** The token's own fields, and the other claims NextAuth keeps in it. */
  datatype Token = Token(id: Option<string>, plan: Option<string>, claims: map<string, string>)

  /** The `user` argument of `jwt`, present on sign-in only; a Google
      profile has no plan. */
  datatype SignedInUser = SignedInUser(id: string, plan: Option<string>)

  function SignedIn(a: AuthorizedUser): SignedInUser {
    SignedInUser(a.id, Some(PlanName(a.plan)))
  }

  /** `jwt({ token, user })`. */
  function Jwt(token: Token, user: Option<SignedInUser>): (r: Token)
    ensures user.None? ==> r == token
    ensures user.Some? ==> r.id == Some(user.value.id) && r.claims == token.claims
    ensures user.Some? ==> r.plan.Some? && r.plan.value != ""
    ensures user.Some? && Truthy(user.value.plan) ==> r.plan == user.value.plan
    ensures user.Some? && !Truthy(user.value.plan) ==> r.plan == Some("free")
  {
    if user.None? then token
    else token.(id := Some(user.value.id), plan := Some(OrElse(user.value.plan, "free")))
  }

  /** Running `jwt` again with the same user changes nothing. */
  lemma JwtIdempotent(token: Token, user: Option<SignedInUser>)
    ensures Jwt(Jwt(token, user), user) == Jwt(token, user)
  {
  }

  /** A credentials sign-in puts the stored plan's name in the token. */
  lemma JwtCarriesStoredPlan(token: Token, a: AuthorizedUser)
    ensures Jwt(token, Some(SignedIn(a))).plan == Some(PlanName(a.plan))
    ensures PlanFromName(Jwt(token, Some(SignedIn(a))).plan.value) == Some(a.plan)
  {
  }

  datatype SessionUser = SessionUser(
    id: Option<string>, plan: Option<string>,
    name: Option<string>, email: Option<string>, image: Option<string>)

  datatype Session = Session(user: Option<SessionUser>, expires: string)

  /** `session({ session, token })`. */
  function SessionOf(session: Session, token: Token): (r: Session)
    ensures session.user.None? ==> r == session
    ensures session.user.Some? ==>
      && r.user.Some? && r.user.value.id == token.id && r.user.value.plan == token.plan
      && r.user.value.(id := session.user.value.id, plan := session.user.value.plan) == session.user.value
      && r.expires == session.expires
  {
    if session.user.None? then session
    else session.(user := Some(session.user.value.(id := token.id, plan := token.plan)))
  }

  /** After sign-in, the session shows the user's id and a non-empty plan. */
  lemma SessionAfterSignIn(session: Session, token: Token, user: SignedInUser)
    requires session.user.Some?
    ensures var r := SessionOf(session, Jwt(token, Some(user)));
      r.user.value.id == Some(user.id) && r.user.value.plan == Some(OrElse(user.plan, "free"))
  {
  }

  datatype Account = Account(provider: string)

  const GoogleProvider: string := "google"

  /** The profile a provider returns. */
  datatype ProviderUser = ProviderUser(name: Option<string>, email: string, image: Option<string>)

  /** `signIn({ user, account })`: `Success(s')` is the return of `true`
      with the store `s'`; `Failure` is the exception `User.create` throws.
      `id` is the identifier the database would assign. */
  function SignIn(s: Store, user: ProviderUser, account: Option<Account>, id: string, now: int): (r: Result<Store, CreateError>)
    ensures account.None? || account.value.provider != GoogleProvider ==> r == Success(s)
    ensures ToLower(user.email) in s.users ==> r == Success(s)
    ensures r.Success? ==> s.users.Keys <= r.value.users.Keys
    ensures r.Success? && r.value != s ==>
      && account.Some? && account.value.provider == GoogleProvider
      && var key := ToLower(user.email);
      && key !in s.users && key in r.value.users && Truthy(user.name)
      && r.value.users == s.users[key := r.value.users[key]]
      && r.value.users[key].plan == Free
      && r.value.users[key].password.None?
      && r.value.users[key].emailVerified == Some(now)
      && r.value.users[key].name == user.name.value
    ensures r.Success? && account.Some? && account.value.provider == GoogleProvider && ToLower(user.email) !in s.users ==>
      r.value != s && ToLower(user.email) in r.value.users
    ensures r.Failure? <==>
      account.Some? && account.value.provider == GoogleProvider
      && ToLower(user.email) !in s.users && !(Truthy(user.name) && user.email != "")
    ensures r.Success? && Valid(s) ==> Valid(r.value)
  {
    if account.Some? && account.value.provider == GoogleProvider then
      if FindOne(s, user.email, DefaultFields).Some? then Success(s)
      else
        var input := UserInput(user.name, Some(user.email), None, user.image, Some(now), Some("free"));
        match Create(s, id, input, now)
        case Failure(e) => Failure(e)
        case Success((s', _)) => Success(s')
    else Success(s)
  }

  /** Signing in again, at any time, changes nothing. */
  lemma SignInIdempotent(s: Store, user: ProviderUser, account: Option<Account>, id1: string, id2: string, t1: int, t2: int)
    requires SignIn(s, user, account, id1, t1).Success?
    ensures var s1 := SignIn(s, user, account, id1, t1).value;
      SignIn(s1, user, account, id2, t2) == Success(s1)
  {
    var s1 := SignIn(s, user, account, id1, t1).value;
    if account.Some? && account.value.provider == GoogleProvider && s1 != s {
      assert ToLower(user.email) in s1.users;
    }
  }

  /** An account created through Google has no password, so the
      credentials provider never lets it in. */
  lemma GoogleAccountRefusesPasswords(s: Store, user: ProviderUser, id: string, now: int,
                                      password: Option<string>, compare: (string, string) -> bool)
    requires ToLower(user.email) !in s.users
    requires SignIn(s, user, Some(Account(GoogleProvider)), id, now).Success?
    ensures var s1 := SignIn(s, user, Some(Account(GoogleProvider)), id, now).value;
      Authorize(s1, Some(Credentials(Some(user.email), password)), compare).None?
  {
    var s1 := SignIn(s, user, Some(Account(GoogleProvider)), id, now).value;
    assert s1 != s by {
      assert ToLower(user.email) in s1.users;
    }
  }
}

=== FILE: locales.dfy ===
/** The five locale codes the application is translated into. They key
    the flag table, the plan feature lists and the theme lists, and
    `switchLocale` receives one of them. The module that declares them,
    src/i18n.ts, is not part of this model. */
module Locales {
  const AllCodes: set<string> := {"fr", "en", "es", "pt", "de"}

  /** Every code fits in one path segment. */
  lemma CodesAreSegments()
    ensures forall c :: c in AllCodes ==> '/' !in c && |c| == 2
  {
  }
}

=== FILE: navbar.dfy ===
/** The language switcher of src/components/Navbar.tsx: the flag table
    and `switchLocale`, which rewrites the second `/`-separated segment of
    the current path (the locale segment of `/fr/generate`). */
module Navbar {
  import opened Strings
  import opened Locales

  /** `FLAG_MAP`: each locale's flag, as a pair of regional indicators. */
  const FlagMap: map<string, string> :=
    map["fr" := "\U{1F1EB}\U{1F1F7}", "en" := "\U{1F1EC}\U{1F1E7}",
        "es" := "\U{1F1EA}\U{1F1F8}", "pt" := "\U{1F1E7}\U{1F1F7}",
        "de" := "\U{1F1E9}\U{1F1EA}"]

  /** The flag table covers exactly the five locales. */
  lemma FlagMapCoversLocales()
    ensures FlagMap.Keys == AllCodes
    ensures forall c :: c in FlagMap ==> |FlagMap[c]| == 2
    ensures forall c, k :: c in FlagMap && 0 <= k < 2 ==> '\U{1F1E6}' <= FlagMap[c][k] <= '\U{1F1FF}'
  {
  }

  /** `segments[1] = newLocale` on the array `split` returned: a path
      without `/` has one segment, and assigning index 1 appends. */
  function SetSegment(segments: seq<string>, newLocale: string): (r: seq<string>)
    requires |segments| >= 1
    ensures |r| == if |segments| >= 2 then |segments| else 2
    ensures r[1] == newLocale
    ensures forall k :: 0 <= k < |segments| && k != 1 ==> r[k] == segments[k]
  {
    if |segments| >= 2 then segments[1 := newLocale] else segments + [newLocale]
  }

  /** `pathname.split('/')`, segment 1 replaced, `join('/')`: the new
      path starts with the old segment 0, and for a slash-free locale its
      segments are the old ones with segment 1 replaced. */
  function SwitchLocale(path: string, newLocale: string): (r: string)
    ensures StartsWith(r, Split(path, '/')[0] + "/")
    ensures '/' !in newLocale ==> Split(r, '/') == SetSegment(Split(path, '/'), newLocale)
  {
    var segments := SetSegment(Split(path, '/'), newLocale);
    if '/' in newLocale then Join(segments, '/')
    else
      SetSegmentSlashFree(Split(path, '/'), newLocale);
      SplitJoin(segments, '/');
      Join(segments, '/')
  }

  lemma SetSegmentSlashFree(segments: seq<string>, newLocale: string)
    requires |segments| >= 1 && '/' !in newLocale
    requires forall k :: 0 <= k < |segments| ==> '/' !in segments[k]
    ensures forall k :: 0 <= k < |SetSegment(segments, newLocale)| ==> '/' !in SetSegment(segments, newLocale)[k]
  {
    var r := SetSegment(segments, newLocale);
    forall k | 0 <= k < |r| ensures '/' !in r[k] {
      if k != 1 {
        assert r[k] == segments[k];
      }
    }
  }

  /** After the switch, segment 1 is the new locale and every other
      segment is what it was; a path that has a `/` keeps its number of
      segments. */
  lemma SwitchLocaleSegments(path: string, newLocale: string)
    requires '/' !in newLocale
    ensures Split(SwitchLocale(path, newLocale), '/') == SetSegment(Split(path, '/'), newLocale)
    ensures Split(SwitchLocale(path, newLocale), '/')[1] == newLocale
    ensures '/' in path ==> |Split(SwitchLocale(path, newLocale), '/')| == |Split(path, '/')|
  {
    CountZero(path, '/');
  }

  /** Nothing but segment 1 changes: the path is its own switch to the
      locale it already names. */
  lemma SwitchLocaleKeepsPath(path: string)
    requires |Split(path, '/')| >= 2
    ensures SwitchLocale(path, Split(path, '/')[1]) == path
  {
    var segments := Split(path, '/');
    assert SetSegment(segments, segments[1]) == segments;
    JoinSplit(path, '/');
  }

  /** Switching twice to the same locale is switching once. */
  lemma SwitchLocaleIdempotent(path: string, newLocale: string)
    requires '/' !in newLocale
    ensures SwitchLocale(SwitchLocale(path, newLocale), newLocale) == SwitchLocale(path, newLocale)
  {
    SwitchLocaleSegments(path, newLocale);
    SwitchLocaleKeepsPath(SwitchLocale(path, newLocale));
  }

  /** Only the last switch matters. */
  lemma SwitchLocaleLastWins(path: string, first: string, second: string)
    requires '/' !in first
    ensures SwitchLocale(SwitchLocale(path, first), second) == SwitchLocale(path, second)
  {
    SwitchLocaleSegments(path, first);
    var segments := Split(path, '/');
    assert SetSegment(SetSegment(segments, first), second) == SetSegment(segments, second);
  }

  lemma JoinThree(a: string, b: string, c: string)
    ensures Join([a, b, c], '/') == a + "/" + b + "/" + c
  {
    assert [a, b, c][1..] == [b, c];
    assert [b, c][1..] == [c];
    assert Join([b, c], '/') == b + ['/'] + c;
    assert Join([a, b, c], '/') == a + ['/'] + (b + ['/'] + c);
    assert a + ['/'] + (b + ['/'] + c) == a + "/" + b + "/" + c;
  }

  /** `/fr/generate` switched to English is `/en/generate`. */
  lemma SwitchLocaleExample()
    ensures SwitchLocale("/fr/generate", "en") == "/en/generate"
  {
    JoinThree("", "fr", "generate");
    JoinThree("", "en", "generate");
    assert "" + "/" + "fr" + "/" + "generate" == "/fr/generate";
    assert "" + "/" + "en" + "/" + "generate" == "/en/generate";
    SplitJoin(["", "fr", "generate"], '/');
    assert SetSegment(["", "fr", "generate"], "en") == ["", "en", "generate"];
  }
}

=== FILE: plans.dfy ===
/** The `PLANS` table of src/lib/stripe.ts: the two subscription plans,
    their display names, monthly price, monthly story allowance and the
    feature list shown in each locale. */
module Plans {
  import opened Strings
  import opened Locales
  import opened UserModel

  /** `storiesPerMonth`: a number, or `Infinity` for no limit. */
  datatype MonthlyLimit = Limited(stories: nat) | Unlimited

  /** A plan's entry; the price is in hundredths of a euro. */
  datatype PlanDetails = PlanDetails(
    name: string,
    nameEn: string,
    priceCents: nat,
    storiesPerMonth: MonthlyLimit,
    features: map<string, seq<string>>)

  const FreeStoriesPerMonth: nat := 5

  const FreeFeatures: map<string, seq<string>> :=
    map["fr" := ["5 histoires / mois", "Texte uniquement", "Toutes les langues"],
        "en" := ["5 stories / month", "Text only", "All languages"],
        "es" := ["5 cuentos / mes", "Solo texto", "Todos los idiomas"],
        "pt" := ["5 histórias / mês", "Somente texto", "Todos os idiomas"],
        "de" := ["5 Geschichten / Monat", "Nur Text", "Alle Sprachen"]]

  const PremiumFeatures: map<string, seq<string>> :=
    map["fr" := ["Histoires illimitées", "Illustrations IA", "Lecture audio", "Sauvegarde cloud", "Option livre physique"],
        "en" := ["Unlimited stories", "AI illustrations", "Audio reading", "Cloud backup", "Physical book option"],
        "es" := ["Cuentos ilimitados", "Ilustraciones IA", "Lectura en audio", "Nube", "Opción libro físico"],
        "pt" := ["Histórias ilimitadas", "Ilustrações IA", "Leitura em áudio", "Nuvem", "Livro físico"],
        "de" := ["Unbegrenzte Geschichten", "KI-Illustrationen", "Audiovorlesen", "Cloud", "Physisches Buch"]]

  const FreeDetails: PlanDetails :=
    PlanDetails("Gratuit", "Free", 0, Limited(FreeStoriesPerMonth), FreeFeatures)

  const PremiumDetails: PlanDetails :=
    PlanDetails("Premium", "Premium", 299, Unlimited, PremiumFeatures)

  /** `PLANS[plan]`: one entry per value of the user's plan enumeration. */
  function Details(p: Plan): (r: PlanDetails)
    ensures r.features.Keys == AllCodes
    ensures p == Free <==> r.priceCents == 0
    ensures p == Free <==> r.storiesPerMonth.Limited?
    ensures r.storiesPerMonth.Limited? ==> r.storiesPerMonth.stories == FreeStoriesPerMonth
    ensures forall c :: c in r.features ==> |r.features[c]| == (if p == Free then 3 else 5)
  {
    match p
    case Free => FreeDetails
    case Premium => PremiumDetails
  }

  /** Every free feature list opens with the free allowance written out. */
  lemma FreeFeaturesStateTheLimit()
    ensures forall c :: c in FreeFeatures ==>
      StartsWith(FreeFeatures[c][0], NatToDecimal(FreeStoriesPerMonth) + " ")
  {
  }
}

=== FILE: register.dfy ===
/** `POST /api/auth/register` (src/app/api/auth/register/route.ts):
    validate the three fields, refuse an e-mail already registered in any
    letter case, and store a free-plan user with the hashed password. */
module Register {
  import opened Wrappers
  import opened Strings
  import opened UserModel
  import opened AccountStore

  /** A field of the JSON body: `undefined` when absent, otherwise the
      value `JSON.parse` produced. Numbers are integers here; arrays are
      known by their length. */
  datatype JsonValue =
    | Undefined
    | Null
    | Boolean(b: bool)
    | Number(n: int)
    | Text(s: string)
    | Array(length: nat)
    | Object

  /** JavaScript truthiness: `!v` is false. */
  predicate JsTruthy(v: JsonValue) {
    match v
    case Undefined => false
    case Null => false
    case Boolean(b) => b
    case Number(n) => n != 0
    case Text(s) => s != ""
    case Array(_) => true
    case Object => true
  }

  /** `v.length`: defined for strings and arrays, `undefined` otherwise. */
  function Length(v: JsonValue): (r: Option<nat>)
    ensures r.Some? <==> v.Text? || v.Array?
    ensures v.Text? ==> r == Some(|v.s|)
    ensures v.Array? ==> r == Some(v.length)
  {
    match v
    case Text(s) => Some(|s|)
    case Array(n) => Some(n)
    case _ => None
  }

  /** mongoose's cast of a value to a `String` path: a string is kept, a
      number or a boolean is rendered with `toString`, and an array or a
      plain object is a cast error, as are `null` and `undefined` here. */
  function CastToString(v: JsonValue): (r: Option<string>)
    ensures r.Some? <==> v.Text? || v.Number? || v.Boolean?
    ensures v.Text? ==> r == Some(v.s)
    ensures v.Number? ==> r == Some(IntToString(v.n))
    ensures v.Number? && v.n >= 0 ==> IsDigits(r.value) && DecimalValue(r.value) == v.n
    ensures v.Boolean? ==> r == Some(if v.b then "true" else "false")
    ensures JsTruthy(v) && r.Some? ==> r.value != ""
  {
    match v
    case Text(s) => Some(s)
    case Number(n) => Some(IntToString(n))
    case Boolean(b) => Some(if b then "true" else "false")
    case _ => None
  }

  datatype RegisterBody = RegisterBody(name: JsonValue, email: JsonValue, password: JsonValue)

  /** `!name || !email || !password` is false. */
  predicate AllPresent(b: RegisterBody) {
    JsTruthy(b.name) && JsTruthy(b.email) && JsTruthy(b.password)
  }

  /** `password.length < 6`; `undefined < 6` is false. */
  predicate TooShort(password: JsonValue) {
    Length(password).Some? && Length(password).value < MinPasswordLength
  }

  datatype ReplyBody =
    | ErrorMessage(error: string)
    | Created(id: string, name: string, email: string)

  datatype Reply = Reply(status: int, body: ReplyBody)

  const MinPasswordLength: nat := 6
  const AllFieldsRequired: string := "All fields are required"
  const PasswordTooShort: string := "Password must be at least 6 characters"
  const EmailInUse: string := "Email already in use"
  const InternalError: string := "Internal server error"

  /** The body passes every check of the route for a new address. */
  predicate Registrable(s: Store, b: RegisterBody) {
    && AllPresent(b) && !TooShort(b.password)
    && b.email.Text? && ToLower(b.email.s) !in s.users
    && b.password.Text? && CastToString(b.name).Some?
  }

  /** `password.length < 6` holds exactly for a string or an array of
      fewer than six elements; numbers, booleans, objects, `null` and
      `undefined` never count as too short. */
  lemma TooShortExactly(v: JsonValue)
    ensures TooShort(v) <==> (v.Text? && |v.s| < MinPasswordLength) || (v.Array? && v.length < MinPasswordLength)
  {
  }

  /** The route. `body` is `None` when `req.json()` throws; `id` is the
      identifier the database assigns; `hash` is `bcrypt.hash(·, 12)`
      with this call's salt. The store is returned with the reply. A
      non-string e-mail makes `toLowerCase` throw, a non-string password
      makes `bcrypt.hash` reject, and a name mongoose cannot cast fails
      `create`: each is answered 500. */
  function Post(s: Store, body: Option<RegisterBody>, id: string, hash: string -> string, now: int): (r: (Store, Reply))
    ensures body.None? ==> r == (s, Reply(500, ErrorMessage(InternalError)))
    ensures body.Some? && !AllPresent(body.value) ==> r == (s, Reply(400, ErrorMessage(AllFieldsRequired)))
    ensures body.Some? && AllPresent(body.value) ==>
      var b := body.value;
      && (TooShort(b.password) ==> r == (s, Reply(400, ErrorMessage(PasswordTooShort))))
      && (!TooShort(b.password) && !b.email.Text? ==> r == (s, Reply(500, ErrorMessage(InternalError))))
      && (!TooShort(b.password) && b.email.Text? && ToLower(b.email.s) in s.users ==>
            r == (s, Reply(409, ErrorMessage(EmailInUse))))
      && (!TooShort(b.password) && b.email.Text? && ToLower(b.email.s) !in s.users
          && !(b.password.Text? && CastToString(b.name).Some?) ==>
            r == (s, Reply(500, ErrorMessage(InternalError))))
      && (!TooShort(b.password) && b.email.Text? && ToLower(b.email.s) !in s.users
          && b.password.Text? && CastToString(b.name).Some? ==>
            var email := ToLower(b.email.s);
            var name := CastToString(b.name).value;
            && r.1 == Reply(201, Created(id, name, email))
            && email in r.0.users
            && r.0.users == s.users[email := r.0.users[email]]
            && r.0.users[email].password == Some(hash(b.password.s))
            && r.0.users[email].plan == Free
            && r.0.users[email].name == name)
    ensures Valid(s) ==> Valid(r.0)
    ensures r.1.status != 201 ==> r.0 == s
  {
    if body.None? then (s, Reply(500, ErrorMessage(InternalError)))
    else
      var b := body.value;
      if !AllPresent(b) then
        (s, Reply(400, ErrorMessage(AllFieldsRequired)))
      else if TooShort(b.password) then
        (s, Reply(400, ErrorMessage(PasswordTooShort)))
      else if !b.email.Text? then
        (s, Reply(500, ErrorMessage(InternalError)))
      else if FindOne(s, b.email.s, DefaultFields).Some? then
        (s, Reply(409, ErrorMessage(EmailInUse)))
      else if !b.password.Text? then
        (s, Reply(500, ErrorMessage(InternalError)))
      else
        var input := UserInput(CastToString(b.name), Some(ToLower(b.email.s)), Some(hash(b.password.s)),
                               None, None, Some("free"));
        ToLowerIdempotent(b.email.s);
        match Create(s, id, input, now)
        case Failure(_) => (s, Reply(500, ErrorMessage(InternalError)))
        case Success((s', u)) => (s', Reply(201, Created(u.id, u.name, u.email)))
  }

  /** The 201 reply never carries the password, hashed or not. */
  lemma CreatedReplyHasNoPassword(s: Store, body: Option<RegisterBody>, id: string, hash: string -> string, now: int)
    requires Post(s, body, id, hash, now).1.status == 201
    ensures Post(s, body, id, hash, now).1.body.Created?
    ensures Post(s, body, id, hash, now).1.body.email == ToLower(body.value.email.s)
  {
  }

  /** Once an address is registered, registering it again in any letter
      case is refused with 409 and leaves the store alone. */
  lemma RegisterTwiceConflicts(s: Store, first: RegisterBody, second: RegisterBody,
                               id1: string, id2: string, hash: string -> string, t1: int, t2: int)
    requires Registrable(s, first)
    requires AllPresent(second) && !TooShort(second.password)
    requires second.email.Text? && ToLower(second.email.s) == ToLower(first.email.s)
    ensures Post(s, Some(first), id1, hash, t1).1.status == 201
    ensures var s1 := Post(s, Some(first), id1, hash, t1).0;
      Post(s1, Some(second), id2, hash, t2) == (s1, Reply(409, ErrorMessage(EmailInUse)))
  {
  }

  /** A present name that is a number is stored and answered in its
      decimal rendering. */
  lemma NumericNameIsRendered(s: Store, email: string, password: string, id: string,
                              hash: string -> string, now: int)
    requires email != "" && ToLower(email) !in s.users && |password| >= MinPasswordLength
    ensures Post(s, Some(RegisterBody(Number(42), Text(email), Text(password))), id, hash, now)
         .1 == Reply(201, Created(id, "42", ToLower(email)))
  {
    assert IntToString(42) == "42" by {
      assert NatToDecimal(4) == "4";
    }
  }

  /** A present e-mail or password that is not a string gets past the
      presence check and is answered 500, never 201, with the store
      unchanged. */
  lemma NonStringCredentialsFail(s: Store, b: RegisterBody, id: string, hash: string -> string, now: int)
    requires AllPresent(b) && !TooShort(b.password)
    requires !b.email.Text? || (!b.password.Text? && ToLower(b.email.s) !in s.users)
    ensures Post(s, Some(b), id, hash, now) == (s, Reply(500, ErrorMessage(InternalError)))
  {
  }
}

=== FILE: reply_format.dfy ===
/** The reply layout the prompt of src/lib/anthropic.ts asks for,
    `{"title": "…", "content": "…"}` with newlines escaped as `\n`, and the
    guarantee that the catch block of `generateStory` recovers the title
    and the story exactly from such a reply, even when `JSON.parse`
    rejects it. */
module ReplyFormat {
  import opened Wrappers
  import opened Strings
  import opened Anthropic

  const Head: string := "{\n  \"title\": \""
  const Middle: string := "\",\n  \"content\": \""
  const Tail: string := "\"\n}"

  /** The reply in the prompt's layout, with the body already escaped. */
  function FormattedReply(title: string, body: string): string {
    Head + title + Middle + body + Tail
  }

  /** `text` is `FormattedReply(title, body)`: the literal characters,
      the two keys and the body in place, the title character by character. */
  ghost predicate LaidOut(text: string, title: string, body: string) {
    var t := |title|;
    && |text| == 34 + t + |body|
    && text[0] == '{' && text[1] == '\n' && text[2] == ' ' && text[3] == ' '
    && text[4..11] == TitleKey
    && text[11] == ':' && text[12] == ' ' && text[13] == '"'
    && (forall i :: 0 <= i < t ==> text[14 + i] == title[i])
    && text[14 + t] == '"' && text[15 + t] == ',' && text[16 + t] == '\n'
    && text[17 + t] == ' ' && text[18 + t] == ' '
    && text[19 + t..28 + t] == ContentKey
    && text[28 + t] == ':' && text[29 + t] == ' ' && text[30 + t] == '"'
    && text[31 + t..31 + t + |body|] == body
    && text[31 + t + |body|] == '"' && text[32 + t + |body|] == '\n'
    && text[33 + t + |body|] == '}'
  }

  lemma FormattedReplyIsLaidOut(title: string, body: string)
    ensures LaidOut(FormattedReply(title, body), title, body)
  {
    var text := FormattedReply(title, body);
    var t := |title|;
    FormattedReplyPieces(title, body);
    LiteralChars();
    PieceChars(text, 0, Head);
    PieceChars(text, 14, title);
    PieceChars(text, 14 + t, Middle);
    PieceChars(text, 31 + t + |body|, Tail);
    assert text[4..11] == TitleKey by {
      KeysInLayout();
      assert text[4..11] == text[..14][4..11];
    }
    assert text[19 + t..28 + t] == ContentKey by {
      KeysInLayout();
      assert text[19 + t..28 + t] == text[14 + t..31 + t][5..14];
    }
  }

  /** The characters of the three literal pieces. */
  lemma LiteralChars()
    ensures Head[0] == '{' && Head[1] == '\n' && Head[2] == ' ' && Head[3] == ' '
    ensures Head[11] == ':' && Head[12] == ' ' && Head[13] == '"'
    ensures Middle[0] == '"' && Middle[1] == ',' && Middle[2] == '\n' && Middle[3] == ' ' && Middle[4] == ' '
    ensures Middle[14] == ':' && Middle[15] == ' ' && Middle[16] == '"'
    ensures Tail[0] == '"' && Tail[1] == '\n' && Tail[2] == '}'
  {
  }

  /** Where each piece of the layout sits in the reply. */
  lemma FormattedReplyPieces(title: string, body: string)
    ensures var text := FormattedReply(title, body); var t := |title|;
      && |Head| == 14 && |Middle| == 17 && |Tail| == 3
      && |text| == 34 + t + |body|
      && text[..14] == Head
      && text[14..14 + t] == title
      && text[14 + t..31 + t] == Middle
      && text[31 + t..31 + t + |body|] == body
      && text[31 + t + |body|..] == Tail
  {
    var text := FormattedReply(title, body);
    assert text == Head + (title + (Middle + (body + Tail)));
  }

  /** A piece found at an offset gives each of its characters there. */
  lemma PieceChars(text: string, off: nat, piece: string)
    requires off + |piece| <= |text| && text[off..off + |piece|] == piece
    ensures forall i :: 0 <= i < |piece| ==> text[off + i] == piece[i]
  {
    forall i | 0 <= i < |piece| ensures text[off + i] == piece[i] {
      assert text[off..off + |piece|][i] == text[off + i];
    }
  }

  lemma KeysInLayout()
    ensures Head[4..11] == TitleKey
    ensures Middle[5..14] == ContentKey
  {
  }

  lemma TitleFound(text: string, title: string, body: string)
    requires LaidOut(text, title, body)
    requires |title| >= 1 && '"' !in title
    ensures TitleAt(text, 4) == Some(title)
  {
    assert SkipWhitespace(text, 11) == 11;
    assert SkipWhitespace(text, 12) == 13;
    assert ValueStart(text, 4, TitleKey) == Some(14);
    forall m | 14 <= m < 14 + |title| ensures text[m] != '"' {
      assert text[m] == title[m - 14];
    }
    NextQuoteLands(text, 14, 14 + |title|);
    assert text[14..14 + |title|] == title;
  }

  lemma TitleLeftmost(text: string, title: string, body: string)
    requires LaidOut(text, title, body)
    requires |title| >= 1 && '"' !in title
    ensures Extract(Title, text) == Some(title)
  {
    TitleFound(text, title, body);
    assert LeftmostFrom(Title, text, 4) == Some(4);
    NoMatchWithoutKey(Title, text, 3, 0);
    NoMatchWithoutKey(Title, text, 2, 0);
    NoMatchWithoutKey(Title, text, 1, 0);
    NoMatchWithoutKey(Title, text, 0, 0);
    assert LeftmostFrom(Title, text, 0) == Some(4);
  }

  lemma ClosingFound(text: string, title: string, body: string)
    requires LaidOut(text, title, body)
    requires |body| >= 1 && '"' !in body
    ensures FirstClose(text, 32 + |title|) == Some(31 + |title| + |body|)
  {
    var e := 31 + |title| + |body|;
    assert SkipWhitespace(text, e + 2) == e + 2;
    assert SkipWhitespace(text, e + 1) == e + 2;
    assert ClosesAt(text, e);
    forall m | 31 + |title| <= m < e ensures !ClosesAt(text, m) {
      assert text[m] == body[m - 31 - |title|];
    }
    var r := FirstClose(text, 32 + |title|);
    assert r.Some?;
  }

  lemma ContentFound(text: string, title: string, body: string)
    requires LaidOut(text, title, body)
    requires |body| >= 1 && '"' !in body
    ensures ContentAt(text, 19 + |title|) == Some(body)
  {
    var p := 19 + |title|;
    assert SkipWhitespace(text, p + 9) == p + 9;
    assert SkipWhitespace(text, p + 10) == p + 11;
    assert ValueStart(text, p, ContentKey) == Some(31 + |title|);
    ClosingFound(text, title, body);
  }

  /** The key `"content"` could start at index 13 only if the title were
      the word `content`, and then a comma, not a colon, follows it. */
  lemma NoContentAtTitleValue(text: string, title: string, body: string)
    requires LaidOut(text, title, body)
    requires |title| >= 1 && '"' !in title
    ensures MatchAt(Content, text, 13).None?
  {
    var t := |title|;
    if t > 7 {
      assert text[21] == title[7];
      NoMatchWithoutKey(Content, text, 13, 8);
    } else if t < 7 {
      NoMatchWithoutKey(Content, text, 13, 1 + t);
    } else if OccursAt(text, ContentKey, 13) {
      assert SkipWhitespace(text, 22) == 22;
    }
  }

  lemma NoContentInHead(text: string, title: string, body: string)
    requires LaidOut(text, title, body)
    requires |title| >= 1 && '"' !in title
    ensures forall q | 0 <= q < 14 :: MatchAt(Content, text, q).None?
  {
    NoContentAtTitleValue(text, title, body);
    forall q | 0 <= q < 13 ensures MatchAt(Content, text, q).None? {
      if text[q] != '"' {
        NoMatchWithoutKey(Content, text, q, 0);
      } else {
        NoMatchWithoutKey(Content, text, q, 1);
      }
    }
  }

  lemma NoContentInTitle(text: string, title: string, body: string)
    requires LaidOut(text, title, body)
    requires '"' !in title
    ensures forall q | 14 <= q < 14 + |title| :: MatchAt(Content, text, q).None?
  {
    forall q | 14 <= q < 14 + |title| ensures MatchAt(Content, text, q).None? {
      assert text[q] == title[q - 14];
      NoMatchWithoutKey(Content, text, q, 0);
    }
  }

  lemma NoContentBeforeKey(text: string, title: string, body: string)
    requires LaidOut(text, title, body)
    ensures forall q | 14 + |title| <= q < 19 + |title| :: MatchAt(Content, text, q).None?
  {
    var t := |title|;
    forall q | 14 + t <= q < 19 + t ensures MatchAt(Content, text, q).None? {
      if q == 14 + t {
        NoMatchWithoutKey(Content, text, q, 1);
      } else {
        NoMatchWithoutKey(Content, text, q, 0);
      }
    }
  }

  lemma ContentLeftmost(text: string, title: string, body: string)
    requires LaidOut(text, title, body)
    requires |title| >= 1 && '"' !in title
    requires |body| >= 1 && '"' !in body
    ensures Extract(Content, text) == Some(body)
  {
    ContentFound(text, title, body);
    assert MatchAt(Content, text, 19 + |title|) == Some(body);
    NoContentInHead(text, title, body);
    NoContentInTitle(text, title, body);
    NoContentBeforeKey(text, title, body);
    ExtractFromFirstMatch(Content, text, 19 + |title|, body);
  }

  /** A match with no match before it is what extraction returns. */
  lemma ExtractFromFirstMatch(f: Field, text: string, p: nat, c: string)
    requires MatchAt(f, text, p) == Some(c)
    requires forall q | 0 <= q < p :: MatchAt(f, text, q).None?
    ensures Extract(f, text) == Some(c)
  {
    var r := LeftmostFrom(f, text, 0);
    assert r.Some? && r.value == p;
  }

  lemma {:induction false} EscapeKeepsQuotesOut(s: string)
    requires '"' !in s
    ensures '"' !in EscapeNewlines(s)
  {
    if |s| > 0 {
      assert '"' !in s[1..] by {
        assert forall k :: 0 <= k < |s| - 1 ==> s[1..][k] == s[k + 1];
      }
      EscapeKeepsQuotesOut(s[1..]);
    }
  }

  /** A reply in the requested layout gives back the title and the story
      exactly, through the catch block alone: the title is captured, and
      un-escaping the captured body undoes the provider's escaping. */
  lemma FormattedReplyRoundTrip(title: string, story: string, childName: string, parse: string -> Parsed)
    requires |title| >= 1 && '"' !in title
    requires |story| >= 1 && '"' !in story && NoEscapedNewline(story)
    requires !parse(FormattedReply(title, EscapeNewlines(story))).Value?
    ensures Decode(FormattedReply(title, EscapeNewlines(story)), childName, parse)
         == GeneratedStory(title, story, Recovered)
  {
    var body := EscapeNewlines(story);
    var text := FormattedReply(title, body);
    EscapeKeepsQuotesOut(story);
    FormattedReplyIsLaidOut(title, body);
    TitleLeftmost(text, title, body);
    ContentLeftmost(text, title, body);
    UnescapeEscape(story);
  }

  /** End to end: when the first content block holds a reply in the
      requested layout that `JSON.parse` rejects, `generateStory` returns
      the title and the story the provider wrote. */
  lemma GenerateStoryOfFormattedReply(p: StoryParams, title: string, story: string,
                                      rest: seq<ContentBlock>, parse: string -> Parsed)
    requires |title| >= 1 && '"' !in title
    requires |story| >= 1 && '"' !in story && NoEscapedNewline(story)
    requires !parse(FormattedReply(title, EscapeNewlines(story))).Value?
    ensures GenerateStory(p, [TextBlock(FormattedReply(title, EscapeNewlines(story)))] + rest, parse)
         == Success(GeneratedStory(title, story, Recovered))
  {
    FormattedReplyRoundTrip(title, story, p.childName, parse);
  }
}

=== FILE: story.dfy ===
/** The `Story` schema of src/models/Story.ts and the ages the generator
    form of src/components/StoryGenerator.tsx offers. */
module StoryModel {
  import opened Wrappers
  import opened Strings

  const MinChildAge: int := 1
  const MaxChildAge: int := 15
  const DefaultLanguage: string := "fr"
  const DefaultLocale: string := "fr"

  /** A stored story; `userId` is the owner's identifier. */
  datatype Story = Story(
    userId: string,
    childName: string,
    childAge: int,
    theme: string,
    language: string,
    title: string,
    content: string,
    imageUrl: Option<string>,
    audioUrl: Option<string>,
    locale: string,
    printOrdered: bool,
    createdAt: int,
    updatedAt: int)

  predicate ValidStory(s: Story) {
    && s.userId != "" && s.childName != "" && s.theme != ""
    && s.language != "" && s.title != "" && s.content != ""
    && MinChildAge <= s.childAge <= MaxChildAge
  }

  /** The fields a caller passes to `Story.create`. */
  datatype StoryInput = StoryInput(
    userId: Option<string>,
    childName: Option<string>,
    childAge: Option<int>,
    theme: Option<string>,
    language: Option<string>,
    title: Option<string>,
    content: Option<string>,
    imageUrl: Option<string>,
    audioUrl: Option<string>,
    locale: Option<string>,
    printOrdered: Option<bool>)

  datatype StoryPath =
    UserIdPath | ChildNamePath | ChildAgePath | ThemePath | LanguagePath | TitlePath | ContentPath

  /** The `childAge` path: required (any number), then `min: 1, max: 15`. */
  predicate AgeAccepted(age: Option<int>) {
    age.Some? && MinChildAge <= age.value <= MaxChildAge
  }

  /** The paths `Story.create(input)` reports as invalid. Defaults are
      filled before validation, so an absent language passes as `'fr'`
      while an empty one fails. */
  function StoryViolations(input: StoryInput): (r: set<StoryPath>)
    ensures UserIdPath in r <==> !Truthy(input.userId)
    ensures ChildNamePath in r <==> !Truthy(input.childName)
    ensures ChildAgePath in r <==> !AgeAccepted(input.childAge)
    ensures ThemePath in r <==> !Truthy(input.theme)
    ensures LanguagePath in r <==> input.language == Some("")
    ensures TitlePath in r <==> !Truthy(input.title)
    ensures ContentPath in r <==> !Truthy(input.content)
  {
    (if Truthy(input.userId) then {} else {UserIdPath})
    + (if Truthy(input.childName) then {} else {ChildNamePath})
    + (if AgeAccepted(input.childAge) then {} else {ChildAgePath})
    + (if Truthy(input.theme) then {} else {ThemePath})
    + (if input.language != Some("") then {} else {LanguagePath})
    + (if Truthy(input.title) then {} else {TitlePath})
    + (if Truthy(input.content) then {} else {ContentPath})
  }

  /** The document `Story.create(input)` stores at time `now`, or the
      failing paths of its validation error. */
  function NewStory(input: StoryInput, now: int): (r: Result<Story, set<StoryPath>>)
    ensures r.Failure? <==> StoryViolations(input) != {}
    ensures r.Failure? ==> r.error == StoryViolations(input)
    ensures r.Success? ==>
      var s := r.value;
      && ValidStory(s)
      && s.userId == input.userId.value && s.childName == input.childName.value
      && s.childAge == input.childAge.value && s.theme == input.theme.value
      && s.title == input.title.value && s.content == input.content.value
      && s.language == OrElse(input.language, DefaultLanguage)
      && s.locale == (if input.locale.Some? then input.locale.value else DefaultLocale)
      && s.printOrdered == (input.printOrdered == Some(true))
      && s.imageUrl == input.imageUrl && s.audioUrl == input.audioUrl
      && s.createdAt == now && s.updatedAt == now
  {
    var failing := StoryViolations(input);
    if failing != {} then Failure(failing)
    else
      assert UserIdPath !in failing && ChildNamePath !in failing && ChildAgePath !in failing;
      assert ThemePath !in failing && LanguagePath !in failing;
      assert TitlePath !in failing && ContentPath !in failing;
      Success(Story(input.userId.value, input.childName.value, input.childAge.value,
                    input.theme.value, OrElse(input.language, DefaultLanguage), input.title.value,
                    input.content.value, input.imageUrl, input.audioUrl,
                    if input.locale.Some? then input.locale.value else DefaultLocale,
                    if input.printOrdered.Some? then input.printOrdered.value else false,
                    now, now))
  }

  /** A story is stored exactly when every required path is filled and
      the age is in range. */
  lemma NewStoryAcceptsExactlyValid(input: StoryInput, now: int)
    ensures NewStory(input, now).Success? <==>
      && Truthy(input.userId) && Truthy(input.childName) && AgeAccepted(input.childAge)
      && Truthy(input.theme) && input.language != Some("")
      && Truthy(input.title) && Truthy(input.content)
  {
    var failing := StoryViolations(input);
    if failing == {} {
      assert UserIdPath !in failing && ChildNamePath !in failing && ChildAgePath !in failing;
      assert ThemePath !in failing && LanguagePath !in failing;
      assert TitlePath !in failing && ContentPath !in failing;
    }
  }

  /** `AGES`: `Array.from({ length: 13 }, (_, i) => i + 2)`. */
  const Ages: seq<int> := seq(13, i => i + 2)

  /** The form offers exactly the ages 2 to 14, each one the schema
      accepts. */
  lemma AgesOffered()
    ensures forall a :: a in Ages <==> 2 <= a <= 14
    ensures forall a :: a in Ages ==> AgeAccepted(Some(a))
  {
    forall a | 2 <= a <= 14 ensures a in Ages {
      assert Ages[a - 2] == a;
    }
  }
}

=== FILE: story_card.dfy ===
/** The values src/components/StoryCard.tsx derives from a saved story
    before rendering it: the theme icon with its fallback, the word count,
    the reading time and the excerpt. */
module StoryCard {
  import opened Wrappers
  import opened Strings
  import opened Themes

  /** The icon shown for a theme the table does not know. */
  const BookIcon: string := "\U{1F4D6}"

  /** `THEME_EMOJIS`. */
  const ThemeEmojis: map<string, string> :=
    map["dragons" := "\U{1F409}", "space" := "\U{1F680}",
        "forest" := "\U{1F332}", "ocean" := "\U{1F30A}",
        "princess" := "\U{1F478}", "dinosaurs" := "\U{1F995}",
        "superheroes" := "\U{1F9B8}", "animals" := "\U{1F43E}",
        "pirates" := "\U{1F3F4}\U{200D}\U{2620}\U{FE0F}", "fairies" := "\U{1F9DA}"]

  /** `THEME_EMOJIS[theme] || '📖'`: the table's icon, or the book. */
  function ThemeEmoji(theme: string): (r: string)
    ensures r != ""
    ensures theme in ThemeEmojis ==> r == ThemeEmojis[theme]
    ensures theme !in ThemeEmojis ==> r == BookIcon
  {
    OrElse(if theme in ThemeEmojis then Some(ThemeEmojis[theme]) else None, BookIcon)
  }

  /** Every theme the generator form offers has its own icon, the one its
      label starts with. */
  lemma KnownThemesHaveTheirIcon()
    ensures forall i :: 0 <= i < |ThemeValues| ==>
      ThemeEmoji(ThemeValues[i]) == ThemeIcons[i] && ThemeIcons[i] != BookIcon
  {
    forall i | 0 <= i < |ThemeValues|
      ensures ThemeValues[i] in ThemeEmojis && ThemeEmojis[ThemeValues[i]] == ThemeIcons[i]
    {
      if i == 0 { assert ThemeValues[i] == "dragons"; }
      else if i == 1 { assert ThemeValues[i] == "space"; }
      else if i == 2 { assert ThemeValues[i] == "forest"; }
      else if i == 3 { assert ThemeValues[i] == "ocean"; }
      else if i == 4 { assert ThemeValues[i] == "princess"; }
      else if i == 5 { assert ThemeValues[i] == "dinosaurs"; }
      else if i == 6 { assert ThemeValues[i] == "superheroes"; }
      else if i == 7 { assert ThemeValues[i] == "animals"; }
      else if i == 8 { assert ThemeValues[i] == "pirates"; }
      else { assert ThemeValues[i] == "fairies"; }
    }
  }

  /** Any theme outside the form's ten gets the book. */
  lemma UnknownThemesGetTheBook(theme: string)
    requires theme !in ThemeValues
    ensures ThemeEmoji(theme) == BookIcon
  {
    assert ThemeEmojis.Keys == {"dragons", "space", "forest", "ocean", "princess",
      "dinosaurs", "superheroes", "animals", "pirates", "fairies"};
    assert theme != ThemeValues[0] && theme != ThemeValues[1] && theme != ThemeValues[2];
    assert theme != ThemeValues[3] && theme != ThemeValues[4] && theme != ThemeValues[5];
    assert theme != ThemeValues[6] && theme != ThemeValues[7] && theme != ThemeValues[8];
    assert theme != ThemeValues[9];
  }

  /** `content.split(' ').length`. */
  function WordCount(content: string): (r: nat)
    ensures r == Count(content, ' ') + 1
  {
    |Split(content, ' ')|
  }

  /** Words written one space apart are counted exactly. */
  lemma WordCountOfWords(words: seq<string>)
    requires |words| >= 1
    requires forall k :: 0 <= k < |words| ==> ' ' !in words[k]
    ensures WordCount(Join(words, ' ')) == |words|
  {
    SplitJoin(words, ' ');
  }

  const WordsPerMinute: nat := 150

  /** `Math.ceil(words / 150)`: the least number of minutes at 150 words
      a minute that covers the words. */
  function ReadingTime(words: nat): (r: nat)
    ensures WordsPerMinute * r >= words
    ensures r > 0 ==> WordsPerMinute * (r - 1) < words
  {
    (words + WordsPerMinute - 1) / WordsPerMinute
  }

  /** More words never read faster. */
  lemma ReadingTimeMonotone(a: nat, b: nat)
    requires a <= b
    ensures ReadingTime(a) <= ReadingTime(b)
  {
  }

  /** Every card shows at least one minute, as the word count is never 0. */
  lemma ReadingTimeAtLeastOne(content: string)
    ensures ReadingTime(WordCount(content)) >= 1
  {
  }

  const ExcerptLength: nat := 120
  const Ellipsis: string := "..."

  function Min(a: nat, b: nat): nat {
    if a <= b then a else b
  }

  /** `content.replace(/\n/g, ' ').slice(0, 120) + '...'`. */
  function Excerpt(content: string): (r: string)
    ensures |r| == Min(|content|, ExcerptLength) + |Ellipsis|
    ensures EndsWith(r, Ellipsis)
    ensures '\n' !in r
    ensures forall k :: 0 <= k < Min(|content|, ExcerptLength) ==>
      r[k] == (if content[k] == '\n' then ' ' else content[k])
  {
    var flat := ReplaceChar(content, '\n', ' ');
    var r := flat[..Min(|content|, ExcerptLength)] + Ellipsis;
    assert r[|r| - 3..] == Ellipsis;
    r
  }

  /** A short single-line story is shown whole, followed by the ellipsis. */
  lemma ExcerptOfShortLine(content: string)
    requires |content| <= ExcerptLength && '\n' !in content
    ensures Excerpt(content) == content + Ellipsis
  {
    var r := Excerpt(content);
    assert forall k :: 0 <= k < |content| ==> r[k] == content[k];
    assert r[|content|..] == Ellipsis;
  }

  /** Only the first 120 characters of the story decide the excerpt. */
  lemma ExcerptSeesOnlyThePrefix(a: string, b: string)
    requires |a| >= ExcerptLength && |b| >= ExcerptLength
    requires a[..ExcerptLength] == b[..ExcerptLength]
    ensures Excerpt(a) == Excerpt(b)
  {
    var ra, rb := Excerpt(a), Excerpt(b);
    forall k | 0 <= k < |ra| ensures ra[k] == rb[k] {
      if k < ExcerptLength {
        assert a[k] == a[..ExcerptLength][k];
        assert b[k] == b[..ExcerptLength][k];
      } else {
        assert ra[ExcerptLength..] == Ellipsis;
        assert rb[ExcerptLength..] == Ellipsis;
        assert ra[k] == ra[ExcerptLength..][k - ExcerptLength];
        assert rb[k] == rb[ExcerptLength..][k - ExcerptLength];
      }
    }
  }
}

=== FILE: strings.dfy ===
/** The JavaScript string operations the application relies on, over
    `seq<char>`: `split`/`join` on one separator character, ASCII
    `toLowerCase`, number-to-text rendering, truthiness, and substring
    search. */
module Strings {
  import opened Wrappers

  /** JavaScript truthiness of a value that is either `undefined` or a
      string: only a present, non-empty string is truthy. */
  predicate Truthy(v: Option<string>) {
    v.Some? && v.value != ""
  }

  /** `a || b` where `a` is an optional string and `b` a string. */
  function OrElse(a: Option<string>, b: string): (r: string)
    ensures Truthy(a) ==> r == a.value
    ensures !Truthy(a) ==> r == b
  {
    if Truthy(a) then a.value else b
  }

  // ---------------------------------------------------------------------
  // Counting, prefixes, substrings

  function Count(s: string, c: char): nat {
    if |s| == 0 then 0
    else (if s[0] == c then 1 else 0) + Count(s[1..], c)
  }

  lemma {:induction false} CountZero(s: string, c: char)
    ensures Count(s, c) == 0 <==> c !in s
  {
    if |s| > 0 {
      CountZero(s[1..], c);
      assert s == [s[0]] + s[1..];
    }
  }

  predicate StartsWith(s: string, prefix: string) {
    |prefix| <= |s| && s[..|prefix|] == prefix
  }

  predicate EndsWith(s: string, suffix: string) {
    |suffix| <= |s| && s[|s| - |suffix|..] == suffix
  }

  /** `sub` occurs in `s` starting at index `i`. */
  predicate OccursAt(s: string, sub: string, i: nat) {
    i + |sub| <= |s| && s[i..i + |sub|] == sub
  }

  ghost predicate Contains(s: string, sub: string) {
    exists i: nat :: OccursAt(s, sub, i)
  }

  /** Concatenation of a sequence of pieces (a template literal). */
  function Concat(parts: seq<string>): string {
    if |parts| == 0 then "" else parts[0] + Concat(parts[1..])
  }

  /** Every piece of a concatenation occurs in it. */
  lemma {:induction false} ConcatContainsPart(parts: seq<string>, k: nat)
    requires k < |parts|
    ensures Contains(Concat(parts), parts[k])
  {
    var rest := Concat(parts[1..]);
    assert Concat(parts) == parts[0] + rest;
    if k == 0 {
      assert OccursAt(Concat(parts), parts[0], 0);
    } else {
      ConcatContainsPart(parts[1..], k - 1);
      var i: nat :| OccursAt(rest, parts[k], i);
      assert (parts[0] + rest)[|parts[0]| + i..|parts[0]| + i + |parts[k]|]
          == rest[i..i + |parts[k]|];
      assert OccursAt(Concat(parts), parts[k], |parts[0]| + i);
    }
  }

  // ---------------------------------------------------------------------
  // String.prototype.split and Array.prototype.join on one character

  /** `s.split(sep)` for a one-character separator: the maximal
      separator-free pieces between separators, including the empty
      pieces before a leading and after a trailing separator. */
  function Split(s: string, sep: char): (r: seq<string>)
    ensures |r| == Count(s, sep) + 1
    ensures forall k :: 0 <= k < |r| ==> sep !in r[k]
    decreases |s|
  {
    if |s| == 0 then [""]
    else if s[0] == sep then [""] + Split(s[1..], sep)
    else
      var rest := Split(s[1..], sep);
      [[s[0]] + rest[0]] + rest[1..]
  }

  /** `parts.join(sep)`: the pieces with `sep` between neighbours. */
  function Join(parts: seq<string>, sep: char): (r: string)
    ensures |parts| == 0 ==> r == ""
    ensures |parts| >= 1 ==> StartsWith(r, parts[0])
    ensures |parts| >= 2 ==> |r| > |parts[0]| && r[|parts[0]|] == sep
  {
    if |parts| == 0 then ""
    else if |parts| == 1 then parts[0]
    else parts[0] + [sep] + Join(parts[1..], sep)
  }

  lemma JoinConsHead(x: string, parts: seq<string>, sep: char)
    requires |parts| >= 1
    ensures Join([x + parts[0]] + parts[1..], sep) == x + Join(parts, sep)
  {
    var q := [x + parts[0]] + parts[1..];
    assert q[1..] == parts[1..];
  }

  /** Joining the pieces of a split gives back the original string. */
  lemma {:induction false} JoinSplit(s: string, sep: char)
    ensures Join(Split(s, sep), sep) == s
    decreases |s|
  {
    if |s| == 0 {
    } else if s[0] == sep {
      var rest := Split(s[1..], sep);
      JoinSplit(s[1..], sep);
      assert ([""] + rest)[1..] == rest;
      assert s == [sep] + s[1..];
    } else {
      var rest := Split(s[1..], sep);
      JoinSplit(s[1..], sep);
      JoinConsHead([s[0]], rest, sep);
      assert s == [s[0]] + s[1..];
    }
  }

  lemma {:induction false} SplitNoSeparator(a: string, sep: char)
    requires sep !in a
    ensures Split(a, sep) == [a]
    decreases |a|
  {
    if |a| > 0 {
      SplitNoSeparator(a[1..], sep);
      assert [a[0]] + a[1..] == a;
    }
  }

  lemma {:induction false} SplitAtFirstSeparator(a: string, rest: string, sep: char)
    requires sep !in a
    ensures Split(a + [sep] + rest, sep) == [a] + Split(rest, sep)
    decreases |a|
  {
    var s := a + [sep] + rest;
    if |a| == 0 {
      assert s[1..] == rest;
    } else {
      assert s[0] == a[0];
      assert s[1..] == a[1..] + [sep] + rest;
      SplitAtFirstSeparator(a[1..], rest, sep);
      assert [a[0]] + a[1..] == a;
    }
  }

  /** Splitting a join of separator-free pieces gives back the pieces. */
  lemma {:induction false} SplitJoin(parts: seq<string>, sep: char)
    requires |parts| >= 1
    requires forall k :: 0 <= k < |parts| ==> sep !in parts[k]
    ensures Split(Join(parts, sep), sep) == parts
    decreases |parts|
  {
    if |parts| == 1 {
      SplitNoSeparator(parts[0], sep);
    } else {
      SplitJoin(parts[1..], sep);
      SplitAtFirstSeparator(parts[0], Join(parts[1..], sep), sep);
      assert [parts[0]] + parts[1..] == parts;
    }
  }

  // ---------------------------------------------------------------------
  // String.prototype.replace of one character by another, everywhere

  function ReplaceChar(s: string, from: char, to: char): (r: string)
    ensures |r| == |s|
    ensures forall k :: 0 <= k < |s| ==> r[k] == (if s[k] == from then to else s[k])
  {
    seq(|s|, k requires 0 <= k < |s| => if s[k] == from then to else s[k])
  }

  // ---------------------------------------------------------------------
  // ASCII toLowerCase

  predicate IsUpperAscii(ch: char) {
    'A' <= ch <= 'Z'
  }

  function LowerChar(ch: char): (r: char)
    ensures !IsUpperAscii(r)
    ensures !IsUpperAscii(ch) ==> r == ch
    ensures IsUpperAscii(ch) ==> r as int == ch as int + 32
  {
    if IsUpperAscii(ch) then (ch as int + 32) as char else ch
  }

  predicate IsLower(s: string) {
    forall k :: 0 <= k < |s| ==> !IsUpperAscii(s[k])
  }

  /** `s.toLowerCase()` restricted to the ASCII letters. */
  function ToLower(s: string): (r: string)
    ensures |r| == |s|
    ensures IsLower(r)
    ensures IsLower(s) <==> r == s
    ensures forall k :: 0 <= k < |s| ==>
      && (IsUpperAscii(s[k]) ==> r[k] as int == s[k] as int + 32)
      && (!IsUpperAscii(s[k]) ==> r[k] == s[k])
  {
    seq(|s|, k requires 0 <= k < |s| => LowerChar(s[k]))
  }

  /** Lower-casing twice is lower-casing once. */
  lemma ToLowerIdempotent(s: string)
    ensures ToLower(ToLower(s)) == ToLower(s)
  {
  }

  // ---------------------------------------------------------------------
  // Rendering integers as `${n}` does

  function DigitChar(d: nat): (r: char)
    requires d < 10
    ensures '0' <= r <= '9'
    ensures r as int - '0' as int == d
  {
    ('0' as int + d) as char
  }

  predicate IsDigits(s: string) {
    forall k :: 0 <= k < |s| ==> '0' <= s[k] <= '9'
  }

  /** The number a string of decimal digits denotes. */
  function DecimalValue(s: string): nat
    requires IsDigits(s)
  {
    if |s| == 0 then 0
    else 10 * DecimalValue(s[..|s| - 1]) + (s[|s| - 1] as int - '0' as int)
  }

  /** The decimal rendering of a natural number: digits only, no
      leading zero, and it denotes the number. */
  function NatToDecimal(n: nat): (r: string)
    ensures |r| >= 1 && IsDigits(r)
    ensures r[0] == '0' ==> n == 0
    ensures DecimalValue(r) == n
  {
    if n < 10 then [DigitChar(n)]
    else
      var prefix := NatToDecimal(n / 10);
      var r := prefix + [DigitChar(n % 10)];
      assert r[..|r| - 1] == prefix;
      r
  }

  function IntToString(i: int): (r: string)
    ensures |r| >= 1
    ensures i >= 0 ==> IsDigits(r) && DecimalValue(r) == i
    ensures i < 0 ==> r[0] == '-' && IsDigits(r[1..]) && DecimalValue(r[1..]) == -i
    ensures i >= 0 && r[0] == '0' ==> i == 0
    ensures i < 0 ==> |r| >= 2 && r[1] != '0'
  {
    if i < 0 then "-" + NatToDecimal(-i) else NatToDecimal(i)
  }
}

=== FILE: themes.dfy ===
/** The `THEMES` table of src/lib/utils.ts: for each of the five locales,
    the same ten story themes in the same order, each a machine `value`
    and a display label (the field `caption`, as `label` is a Dafny
    keyword) made of the theme's icon, a space and the localised name. */
module Themes {
  import opened Strings
  import opened Locales

  datatype Theme = Theme(value: string, caption: string)

  /** The theme values, in table order; `dragons` is the form's default. */
  const ThemeValues: seq<string> :=
    ["dragons", "space", "forest", "ocean", "princess",
     "dinosaurs", "superheroes", "animals", "pirates", "fairies"]

  /** The icon every label starts with, by position. */
  const ThemeIcons: seq<string> :=
    ["\U{1F409}", "\U{1F680}", "\U{1F332}", "\U{1F30A}", "\U{1F478}",
     "\U{1F995}", "\U{1F9B8}", "\U{1F43E}", "\U{1F3F4}\U{200D}\U{2620}\U{FE0F}", "\U{1F9DA}"]

  const DefaultTheme: string := "dragons"

  const FrenchNames: seq<string> := [
    "Dragons & Magie",
    "Espace & Planètes",
    "Forêt Enchantée",
    "Océan & Dauphins",
    "Princes & Princesses",
    "Dinosaures",
    "Super-Héros",
    "Animaux Magiques",
    "Pirates & Trésors",
    "Fées & Elfes"
  ]

  const EnglishNames: seq<string> := [
    "Dragons & Magic",
    "Space & Planets",
    "Enchanted Forest",
    "Ocean & Dolphins",
    "Princes & Princesses",
    "Dinosaurs",
    "Superheroes",
    "Magical Animals",
    "Pirates & Treasure",
    "Fairies & Elves"
  ]

  const SpanishNames: seq<string> := [
    "Dragones y Magia",
    "Espacio y Planetas",
    "Bosque Encantado",
    "Océano y Delfines",
    "Príncipes y Princesas",
    "Dinosaurios",
    "Superhéroes",
    "Animales Mágicos",
    "Piratas y Tesoros",
    "Hadas y Elfos"
  ]

  const PortugueseNames: seq<string> := [
    "Dragões e Magia",
    "Espaço e Planetas",
    "Floresta Encantada",
    "Oceano e Golfinhos",
    "Príncipes e Princesas",
    "Dinossauros",
    "Super-Heróis",
    "Animais Mágicos",
    "Piratas e Tesouros",
    "Fadas e Elfos"
  ]

  const GermanNames: seq<string> := [
    "Drachen & Magie",
    "Weltraum & Planeten",
    "Zauberwald",
    "Ozean & Delfine",
    "Prinzen & Prinzessinnen",
    "Dinosaurier",
    "Superhelden",
    "Magische Tiere",
    "Piraten & Schätze",
    "Feen & Elfen"
  ]

  /** One locale's list: position `i` pairs the `i`-th value with the
      `i`-th icon and name. */
  function Labelled(names: seq<string>): (r: seq<Theme>)
    requires |names| == |ThemeValues|
    ensures |r| == |ThemeValues|
    ensures forall i :: 0 <= i < |r| ==> r[i].value == ThemeValues[i]
    ensures forall i :: 0 <= i < |r| ==> StartsWith(r[i].caption, ThemeIcons[i] + " ")
  {
    seq(|ThemeValues|, i requires 0 <= i < |ThemeValues| =>
      Theme(ThemeValues[i], ThemeIcons[i] + " " + names[i]))
  }

  const ThemesByLocale: map<string, seq<Theme>> :=
    map["fr" := Labelled(FrenchNames),
        "en" := Labelled(EnglishNames),
        "es" := Labelled(SpanishNames),
        "pt" := Labelled(PortugueseNames),
        "de" := Labelled(GermanNames)]

  /** The table is keyed by exactly the five locale codes, and every list
      has the ten values in the shared order, each label led by its icon. */
  lemma ThemeTableShape()
    ensures ThemesByLocale.Keys == AllCodes
    ensures forall c :: c in ThemesByLocale ==> |ThemesByLocale[c]| == 10
    ensures forall c, i :: c in ThemesByLocale && 0 <= i < |ThemesByLocale[c]| ==>
      ThemesByLocale[c][i].value == ThemeValues[i]
      && StartsWith(ThemesByLocale[c][i].caption, ThemeIcons[i] + " ")
  {
  }

  /** No value appears twice in a list. */
  lemma ThemeValuesDistinct()
    ensures forall i, j :: 0 <= i < j < |ThemeValues| ==> ThemeValues[i] != ThemeValues[j]
  {
  }

  /** Every locale offers the form's default theme. */
  lemma DefaultThemeOffered(c: string)
    requires c in ThemesByLocale
    ensures exists i :: 0 <= i < |ThemesByLocale[c]| && ThemesByLocale[c][i].value == DefaultTheme
  {
    assert ThemesByLocale[c][0].value == DefaultTheme;
  }
}

=== FILE: user.dfy ===
/** The `User` schema of src/models/User.ts: the stored record, the plan
    enumeration, and what `User.create` does with the given fields —
    lowercase the e-mail, fill the defaults, and reject a document whose
    required paths are empty or whose plan is outside the enumeration. */
module UserModel {
  import opened Wrappers
  import opened Strings

  datatype Plan = Free | Premium

  function PlanName(p: Plan): string {
    match p
    case Free => "free"
    case Premium => "premium"
  }

  /** The `enum: ['free', 'premium']` validator, as a parser. */
  function PlanFromName(name: string): (r: Option<Plan>)
    ensures r.Some? <==> name == "free" || name == "premium"
    ensures r.Some? ==> PlanName(r.value) == name
  {
    if name == "free" then Some(Free)
    else if name == "premium" then Some(Premium)
    else None
  }

  lemma PlanNameRoundTrip(p: Plan)
    ensures PlanFromName(PlanName(p)) == Some(p)
  {
  }

  const DefaultLocale: string := "fr"

  /** A stored user. Times are milliseconds since the epoch. */
  datatype User = User(
    id: string,
    name: string,
    email: string,
    password: Option<string>,
    image: Option<string>,
    emailVerified: Option<int>,
    plan: Plan,
    storiesUsedThisMonth: int,
    storiesResetDate: int,
    stripeCustomerId: Option<string>,
    stripeSubscriptionId: Option<string>,
    locale: string,
    createdAt: int,
    updatedAt: int)

  /** What validation guarantees of every stored user: a name, and a
      non-empty lower-case e-mail. */
  predicate ValidUser(u: User) {
    u.name != "" && u.email != "" && IsLower(u.email)
  }

  /** The fields a caller passes to `User.create`; absent ones are
      `undefined`. */
  datatype UserInput = UserInput(
    name: Option<string>,
    email: Option<string>,
    password: Option<string>,
    image: Option<string>,
    emailVerified: Option<int>,
    plan: Option<string>)

  /** The schema paths a validation error can name. */
  datatype UserPath = NamePath | EmailPath | PlanPath

  /** The document `User.create(input)` stores under the identifier `id`
      at time `now`, or the set of failing paths of its validation error.
      A required string path fails on `undefined` and on `''`, exactly the
      values that are not truthy. */
  function NewUser(id: string, input: UserInput, now: int): (r: Result<User, set<UserPath>>)
    ensures r.Success? <==>
      Truthy(input.name) && Truthy(input.email)
      && (input.plan.None? || PlanFromName(input.plan.value).Some?)
    ensures r.Failure? ==>
      && (NamePath in r.error <==> !Truthy(input.name))
      && (EmailPath in r.error <==> !Truthy(input.email))
      && (PlanPath in r.error <==> input.plan.Some? && PlanFromName(input.plan.value).None?)
    ensures r.Success? ==>
      var u := r.value;
      && ValidUser(u)
      && u.id == id && u.name == input.name.value
      && u.email == ToLower(input.email.value)
      && u.password == input.password && u.image == input.image
      && u.emailVerified == input.emailVerified
      && PlanName(u.plan) == OrElse(input.plan, "free")
      && u.storiesUsedThisMonth == 0 && u.storiesResetDate == now
      && u.stripeCustomerId.None? && u.stripeSubscriptionId.None?
      && u.locale == DefaultLocale
      && u.createdAt == now && u.updatedAt == now
  {
    var email := if input.email.Some? then Some(ToLower(input.email.value)) else None;
    var plan := if input.plan.Some? then PlanFromName(input.plan.value) else Some(Free);
    var failing :=
      (if Truthy(input.name) then {} else {NamePath})
      + (if Truthy(email) then {} else {EmailPath})
      + (if plan.Some? then {} else {PlanPath});
    if failing != {} then Failure(failing)
    else
      Success(User(id, input.name.value, email.value, input.password, input.image,
                   input.emailVerified, plan.value, 0, now, None, None,
                   DefaultLocale, now, now))
  }

  /** `select: false` on the password path: a query returns the user
      without the password unless it asks for `+password`. */
  function DefaultProjection(u: User): (r: User)
    ensures r.password.None?
    ensures r.(password := u.password) == u
  {
    u.(password := None)
  }
}

=== FILE: wrappers.dfy ===
/** Optional values and success-or-error results, used where the source
    has `undefined`, `null` or a thrown exception. */
module Wrappers {

  datatype Option<+T> = None | Some(value: T)

  datatype Result<+T, +E> = Success(value: T) | Failure(error: E)
}
